=== FILE: README.md ===
# avro command framework — a Dafny model

avro is a Go command-line tool. Commands are plain descriptors: a category, a name, aliases, positional arguments, flags and an action. They live in a catalog (the registry). They are run by an executor that binds arguments and flags by their declared specs. The catalog is browsed in two ways:

- a Cobra command tree (the CLI);
- a Bubble Tea terminal UI, with a home screen of categories, a category screen of commands, a command form, a fuzzy-search palette and a yes/no dialog.

This project models the pure core of that program as immutable Dafny datatypes and total functions, and proves what the code promises:

- the registry's catalog queries;
- the executor's argument resolution;
- the navigator's screen stack;
- every screen's key handling, as a pure `(state, message) → (state, command)` function;
- the app's message routing;
- a few small string functions (header parsing, usage lines, status-bar padding).

Modules, one per source file, plus shared helpers (`Ui`, `Strings`, `Seqs`, `Options`) and worked examples (`Scenarios`):

| module | file | models |
|---|---|---|
| `Domain` | domain.dfy | `internal/domain/command.go`, `result.go`, `errors.go` |
| `CommandRegistry` | registry.dfy | `internal/app/registry/registry.go` |
| `CommandExecutor` | executor.dfy | `internal/app/executor/executor.go` |
| `Navigation` | navigator.dfy | `internal/tui/nav/navigator.go` |
| `Ui` | ui.dfy | messages and commands shared by the screens |
| `HomeView`, `CategoryView`, `DetailView`, `SearchPalette` | home.dfy, category.dfy, command_detail.dfy, search.dfy | `internal/tui/screens/*.go` |
| `App` | app.dfy | `internal/tui/app.go` |
| `Confirm`, `StatusLine` | confirm.dfy, status.dfy | `internal/tui/components/*.go` |
| `HttpHeaders` | http_headers.dfy | `parseHeaders` in `internal/modules/http/commands.go` |
| `CliBuilder` | cli_builder.dfy | `buildUse` and the `RunE` flag map in `internal/cli/builder.go` |
| `Strings`, `Seqs`, `Options` | strings.dfy, seqs.dfy, options.dfy | byte-string order, ASCII lower-casing, substring search, filtering and sorting |
| `Scenarios` | scenarios.dfy | worked examples: the resolver on a clone-like command, one command end to end, browsing to it and back |

Modelling choices:

- A Go `string` is a `seq<char>` in which each `char` stands for one byte, so `len` is `|s|`.
- Go's `<` on strings is the custom lexicographic `Strings.Less`. Dafny's own `<` on sequences means "proper prefix".
- An action is an opaque function value `CommandContext -> Result<string>`.
- The shell runner, file system and HTTP client become an opaque `Services` value. The executor only passes it on.
- The process-wide registry singleton becomes an explicit `Registry` value. The screens receive it through `Ui.Env`, along with the executor and the fuzzy ranker.
- The fuzzy library (`sahilm/fuzzy`) is the `CommandRegistry.Ranker` subset type: any function that returns in-range indices and strictly increasing in-range matched offsets.
- Bubble Tea's `tea.Cmd` closures become `Ui.Cmd`: nothing, quit, or deliver one message.
- `App.Deliver` and `App.Drive` model the runtime delivering such a message right after the update that asked for it.
- Go's type assertions on `Entry.Data` in `app.go` panic on a mismatch. They become the `Ui.WellFormedMsg` precondition.
- Go leaves the category, detail and search screen models at their zero values until first opened. These are `None` in `App.AppModel`. `App.Valid` guarantees that every screen kind on the stack has a model.

## Model

| member | source | states |
|---|---|---|
| Domain.FullName | internal/domain/command.go:53-55 | the qualified name is the category name, one space, then the command name; its length is the sum of both plus one |
| Domain.ErrorText | internal/domain/errors.go:10-31 | each error's text ends with its payload: the missing name, the validation message, the cause's own text, or the text itself |
| Domain.ArgTypeValues | internal/domain/command.go:21-27 | `ArgType` has exactly three values, and their `iota` ordinals tell them apart |
| Domain.OkAccessors | internal/domain/result.go:13-15 | `Ok(v)` is ok, its value is `v`, its error is nil, and `ValueOr` ignores the fallback |
| Domain.FailAccessors | internal/domain/result.go:18-20 | `Fail(e)` is not ok, `Err` returns `e`, and `ValueOr` returns the fallback |
| Domain.Failf | internal/domain/result.go:23-25 | `Failf` always yields a failure carrying the formatted message |
| Domain.ValueOrAgreesWithValue | internal/domain/result.go:28-47 | `ValueOr` equals `Value` exactly on ok results (where `Value` is defined), and the error is nil exactly when ok |
| CommandRegistry.New | internal/app/registry/registry.go:32-34 | a new registry is empty |
| CommandRegistry.All | internal/app/registry/registry.go:44-50 | a snapshot holding every registered descriptor in registration order |
| CommandRegistry.Register | internal/app/registry/registry.go:37-50 | after `Register`, `All` is the old catalog followed by the new descriptors |
| CommandRegistry.RegisterKeepsCallOrder | internal/app/registry/registry.go:37-50 | after any sequence of `Register` calls, `All` holds every descriptor in call order, none lost or reordered |
| CommandRegistry.Upsert | internal/app/registry/registry.go:57-60 | putting a category into the name-sorted list keeps it strictly sorted and replaces the entry with the same name (the map overwrite) |
| CommandRegistry.Categories | internal/app/registry/registry.go:53-70 | strictly increasing names; the category of each last-registered command of a name is listed; nothing else is |
| CommandRegistry.EveryCategoryListedOnce | internal/app/registry/registry.go:57-69 | every registered category name appears, and no name appears twice |
| CommandRegistry.ByCategory | internal/app/registry/registry.go:73-87 | sorted by command name, and a permutation of exactly the descriptors of that category |
| CommandRegistry.ContainsAlias | internal/app/registry/registry.go:158-165 | true exactly when the name is among the aliases |
| CommandRegistry.Find | internal/app/registry/registry.go:90-100 | none exactly when no descriptor matches; otherwise the first match in registration order |
| CommandRegistry.FindByNameOrAlias | internal/app/registry/registry.go:94-99 | lookup succeeds for a command's name and each alias, and fails for a string that is no name or alias in the category |
| CommandRegistry.Search | internal/app/registry/registry.go:103-116 | an order-preserving subsequence holding exactly the descriptors whose lower-cased qualified name or description contains the lower-cased query |
| CommandRegistry.SearchEmptyQueryIsAll | internal/app/registry/registry.go:107-115 | the empty query returns the whole catalog in order |
| CommandRegistry.FuzzySearch | internal/app/registry/registry.go:125-149 | the empty query lists every command once, in order, with no offsets and score 0; any query yields only registered commands with valid offsets into their qualified names |
| CommandExecutor.BindAll | internal/app/executor/executor.go:43-53 | the map built by assigning spec names in order: keys are exactly the bound names, and a later equal binding wins |
| CommandExecutor.FirstMissingFrom | internal/app/executor/executor.go:43-50 | finds the first required positional with no value, or reports that there is none |
| CommandExecutor.MissingArgument | internal/app/executor/executor.go:47-50 | a validation error on the argument's field whose text is `validation error for "name": required argument "name" is missing` |
| CommandExecutor.ResolveArgs | internal/app/executor/executor.go:40-57 | fails exactly when a required positional has no value, naming the first; otherwise binds supplied values by position and non-empty defaults, and nothing else |
| CommandExecutor.SuppliedPositionalsBound | internal/app/executor/executor.go:43-45 | with distinct names, each supplied positional is bound to its value |
| CommandExecutor.MissingOptionalPositional | internal/app/executor/executor.go:46-53 | with distinct names, an unsupplied positional is optional; it gets its non-empty default, or is absent |
| CommandExecutor.ResolveFlags | internal/app/executor/executor.go:59-71 | a supplied declared flag keeps its value even if empty; otherwise a non-empty default; undeclared names are dropped |
| CommandExecutor.Run | internal/app/executor/executor.go:21-38 | a missing required positional gives a validation failure naming the first one; otherwise exactly the action's result for the resolved context |
| CommandExecutor.ValidationFailureSkipsAction | internal/app/executor/executor.go:22-25 | on a validation failure the action is never consulted |
| CommandExecutor.FlagsNeverRequired | internal/app/executor/executor.go:27-37 | flags never make `Run` fail; a successful bind runs the action unchanged |
| Navigation.New | internal/tui/nav/navigator.go:32-36 | one entry, the home screen titled "Home" |
| Navigation.NewWithInitial | internal/tui/nav/navigator.go:39-43 | one entry, the given screen and title |
| Navigation.Current | internal/tui/nav/navigator.go:46-48 | the current screen is an entry of the stack, the root on a one-entry stack; after `Push` it is the pushed entry |
| Navigation.Push | internal/tui/nav/navigator.go:51-53 | depth grows by one, the entry becomes current, and the stack below is unchanged |
| Navigation.Pop | internal/tui/nav/navigator.go:56-62 | succeeds exactly when depth exceeds one, removing only the top; never removes the root |
| Navigation.PushThenPop | internal/tui/nav/navigator.go:51-62 | push then pop succeeds and restores the stack |
| Navigation.PopAtRoot | internal/tui/nav/navigator.go:57-59 | pop at the root fails and changes nothing |
| Navigation.CanGoBack | internal/tui/nav/navigator.go:65-67 | true exactly when `Pop` would succeed, that is, exactly when `Pop` would change the stack |
| Navigation.CanGoBackIffPopSucceeds | internal/tui/nav/navigator.go:56-67 | `CanGoBack` is true exactly when `Pop` would succeed |
| Navigation.Breadcrumb | internal/tui/nav/navigator.go:70-76 | starts with the root's title and ends with the current title; a one-entry stack shows its title alone |
| Navigation.BreadcrumbGrowsWithPush | internal/tui/nav/navigator.go:70-76 | the breadcrumb of a fresh stack is "Home", and each push appends " > " and the title |
| Navigation.BreadcrumbAfterPop | internal/tui/nav/navigator.go:70-76 | popping restores the previous breadcrumb |
| Navigation.NavigationScenario | internal/tui/nav/navigator.go:32-76 | Home, push "git", push "clone": "Home > git > clone"; two pops return home, and a third fails |
| Ui.Up | internal/tui/screens/home.go:39-42 | moving up keeps the cursor in bounds and stops at the first item |
| Ui.Down | internal/tui/screens/home.go:43-46 | moving down keeps the cursor in bounds and stops at the last item |
| HomeView.NewHomeModel | internal/tui/screens/home.go:23-27 | the registry's categories with the cursor on the first |
| HomeView.Update | internal/tui/screens/home.go:31-59 | up/k and down/j move within bounds; enter on a non-empty list pushes a category entry titled and keyed by its name; other keys change nothing; never quits |
| HomeView.DisplayIcon | internal/tui/screens/home.go:68-71 | an empty icon is shown as ">", any other as itself |
| CategoryView.NewCategoryModel | internal/tui/screens/category.go:24-29 | `ByCategory` of the name, so only that category's commands, with the cursor on the first |
| CategoryView.Update | internal/tui/screens/category.go:33-61 | up/k and down/j move within bounds; enter on a non-empty list pushes a detail entry with the bare name and the command; other keys change nothing |
| DetailView.NewDetailModel | internal/tui/screens/command_detail.go:33-47 | positional fields then flag fields, each holding its default, cursor 0, nothing executed |
| DetailView.ArgValues | internal/tui/screens/command_detail.go:109-111 | at most one value per field, each the value of a positional field (`ExecuteArgsMatchSpecs` gives the exact list) |
| DetailView.FlagValues | internal/tui/screens/command_detail.go:109-115 | only non-empty flag-field values, keyed by their flag names; every non-empty flag field is a key, and the last non-empty field of a name gives its value |
| DetailView.ExecuteArgsMatchSpecs | internal/tui/screens/command_detail.go:106-115 | `execute` passes exactly one value per positional spec, in order, empty ones included |
| DetailView.ExecuteFlagsMatchSpecs | internal/tui/screens/command_detail.go:109-115 | `execute` passes only non-empty values, keyed by declared flag names |
| DetailView.ExecuteFlagValues | internal/tui/screens/command_detail.go:112-113 | with distinct flag names, `execute` passes each non-empty flag field under its name with its own value |
| DetailView.FormNeverMissesPositionals | internal/tui/screens/command_detail.go:106-117 | from the form, `Run` never fails the required-argument check, because empty values are passed as "" |
| DetailView.Execute | internal/tui/screens/command_detail.go:117-125 | marks executed; the error flag is set exactly on failure; the output is the value or the error text |
| DetailView.SetValue | internal/tui/screens/command_detail.go:91-98 | changes the current field's value and no other field |
| DetailView.UpdateForm | internal/tui/screens/command_detail.go:69-100 | every form key keeps the field layout and the cursor bound |
| DetailView.Update | internal/tui/screens/command_detail.go:51-103 | keeps the layout and cursor bound, never emits a command, and ignores other messages |
| DetailView.UpdateAfterExecution | internal/tui/screens/command_detail.go:58-67 | after execution only "r" changes state, clearing executed, output and the error flag |
| DetailView.UpdateMovesCursor | internal/tui/screens/command_detail.go:70-77 | up/shift+tab and down/tab move one step, within bounds |
| DetailView.UpdateEnterRunsOnLastField | internal/tui/screens/command_detail.go:78-88 | enter runs with no fields or on the last field and otherwise advances; ctrl+r always runs |
| DetailView.UpdateEditsCurrentField | internal/tui/screens/command_detail.go:89-99 | backspace drops the last byte (a no-op on an empty value); a one-character key appends to the current field |
| DetailView.TypeThenBackspace | internal/tui/screens/command_detail.go:89-99 | typing one character then backspace restores the form; other fields are untouched |
| SearchPalette.NewSearchModel | internal/tui/screens/search.go:33-46 | every command in order, empty query, cursor 0; only the palette constructor is standalone |
| SearchPalette.WithQuery | internal/tui/screens/search.go:117-120 | results are re-ranked for the new query and the cursor reset to 0; nothing else changes |
| SearchPalette.DetailEntry | internal/tui/screens/search.go:84-88 | the pushed entry is a detail entry titled with the qualified name |
| SearchPalette.ExecuteInline | internal/tui/screens/search.go:105-115 | runs with no arguments and flags; error flag exactly on failure; output is the value or the error text |
| SearchPalette.InlineRunIsTheAction | internal/tui/screens/search.go:80-82 | a command with no inputs run in place is exactly its action on empty maps |
| SearchPalette.Update | internal/tui/screens/search.go:50-103 | keeps results consistent with the query and the cursor bound; quits exactly after a run or on esc when standalone; asks to pop or push exactly on esc when embedded or enter on a hit that is not run in place |
| SearchPalette.UpdateNavigationKeys | internal/tui/screens/search.go:63-94 | before any run: esc in the embedded palette asks to pop exactly one screen; up and down move the cursor one step within the results; backspace on an empty query changes nothing |
| SearchPalette.TypeThenBackspace | internal/tui/screens/search.go:90-99 | typing appends to the query and resets the cursor; backspace restores the query and its results |
| SearchPalette.EnterPushesDetail | internal/tui/screens/search.go:76-89 | enter on a hit needing input, or when embedded, pushes its detail entry and changes nothing else |
| SearchPalette.EnterRunsInlineThenQuits | internal/tui/screens/search.go:57-60 | enter on an input-free hit in the palette runs it in place; then any key quits |
| SearchPalette.MaxVisible | internal/tui/screens/search.go:171-177 | 15 before a size is known, otherwise the height less 8 but at least 5 |
| SearchPalette.VisibleWindow | internal/tui/screens/search.go:179-187 | the drawn rows never exceed `MaxVisible` and include the cursor when it is inside the results; the window starts at 0 until the cursor leaves the first page, then scrolls so the cursor sits on the last drawn row |
| SearchPalette.Highlight | internal/tui/screens/search.go:125-142 | same characters as the text, highlighted exactly at the matched offsets |
| SearchPalette.HighlightKeepsText | internal/tui/screens/search.go:125-128 | highlighting never changes the text, and with no matches nothing is highlighted |
| SearchPalette.NamePadding | internal/tui/screens/search.go:193-197 | spaces only, padding a name to 24 columns and never truncating it |
| Confirm.NewConfirmModel | internal/tui/components/confirm.go:21-23 | a new dialog selects yes |
| Confirm.Update | internal/tui/components/confirm.go:27-44 | toggle keys flip the selection; y and n answer regardless of selection; enter answers with it; other keys do nothing |
| Confirm.ToggleTwiceRestores | internal/tui/components/confirm.go:31-34 | two toggles restore the selection and the answer enter gives |
| Confirm.EnterAnswersSelection | internal/tui/components/confirm.go:21-40 | a new dialog confirms on enter, and after one toggle declines |
| StatusLine.StatusBar | internal/tui/components/status.go:6-15 | starts with a space and the label; right-padded with spaces to the width, never truncated |
| StatusLine.WiderBarExtends | internal/tui/components/status.go:8-13 | a wider bar only adds trailing spaces |
| App.NewAppModel | internal/tui/app.go:33-41 | starts valid on the home stack with the registry's categories |
| App.NewPaletteModel | internal/tui/app.go:156-164 | starts valid on a single "Palette" search entry in standalone mode |
| App.Open | internal/tui/app.go:85-96 | a pushed entry gets a fresh model of its own kind (the embedded search included); the stack, the size and the other screens are untouched |
| App.Delegate | internal/tui/app.go:103-116 | the current screen's update keeps the stack and the invariant; only the search screen can quit |
| App.Update | internal/tui/app.go:47-117 | keeps the invariant and the root entry; changes the stack only by one push or one pop; navigation messages emit nothing |
| App.GlobalKeys | internal/tui/app.go:54-82 | ctrl+c quits; q quits at the root unless typing; "/" pushes a fresh "Search" entry unless typing; esc off the search screen pops, or quits at the root |
| App.KeysForTheScreen | internal/tui/app.go:57-65 | q below the root, and while typing every key except ctrl+c (and esc on the command form), goes to the screen |
| App.OtherKeysReachTheScreen | internal/tui/app.go:103-116 | every key other than ctrl+c, q, "/" and esc goes unchanged to the current screen, on every screen |
| App.WindowSizeReachesTheScreen | internal/tui/app.go:48-116 | a window size is recorded by the app and then handed to the current screen |
| App.QuitsOnlyWhenAsked | internal/tui/app.go:47-117 | the program quits only on ctrl+c, on q or esc at the root, or from the search screen |
| App.PaletteKeys | internal/tui/app.go:73-78 | in palette mode esc quits at once and q is typed into the query |
| App.NavigationMessages | internal/tui/app.go:85-100 | a push message pushes its entry, makes it current and builds its screen; a pop message pops |
| App.Deliver | internal/tui/app.go:47-117 | one message plus the message it asks for keeps the invariant and the root; quits exactly when the update quits |
| App.Drive | internal/tui/app.go:47-117 | any message sequence keeps the invariant and the root, and only a key press ends the program |
| HttpHeaders.FirstColon | internal/modules/http/commands.go:69-70 | the first ':' offset, or none exactly when there is no colon |
| HttpHeaders.ParseHeaders | internal/modules/http/commands.go:63-81 | no colon gives no header; otherwise one header split at the first ':' with at most one leading space dropped from the value |
| HttpHeaders.HeaderRoundTrip | internal/modules/http/commands.go:63-81 | "key: value" with a colon-free key parses back to exactly that key and value |
| HttpHeaders.KeyIsColonFree | internal/modules/http/commands.go:70-77 | at most one header, and its key holds no colon |
| HttpHeaders.LaterColonsKept | internal/modules/http/commands.go:72-75 | colons after the first stay in the value |
| HttpHeaders.OneSpaceDropped | internal/modules/http/commands.go:73-75 | only one leading space is removed |
| HttpHeaders.EmptyKey | internal/modules/http/commands.go:70-71 | the key may be empty |
| CliBuilder.ArgUsage | internal/cli/builder.go:71-75 | " <name>" for a required positional, " [name]" otherwise |
| CliBuilder.BuildUse | internal/cli/builder.go:68-78 | starts with the command name, equals it with no positionals, and has the name's length plus each positional's name length plus 3 |
| CliBuilder.UsageAppends | internal/cli/builder.go:70-76 | each further positional appends exactly its own usage, in declared order |
| CliBuilder.UsageExamples | internal/cli/builder.go:68-78 | "get <url>" and "post <url> [body]" for the HTTP commands |
| CliBuilder.CollectFlags | internal/cli/builder.go:41-47 | only declared flag names with non-empty values, each the parser's value |
| CliBuilder.LeafRun | internal/cli/builder.go:41-49 | a leaf command runs the action with the resolved positionals and the collected flags |
| CliBuilder.CliFlagsReachTheAction | internal/cli/builder.go:41-49 | from the command line the action never sees an empty flag value, and sees each non-empty parser value unchanged |
| Scenarios.ResolverNamesFirstMissing | internal/app/executor/executor.go:40-50 | specs url (required) and dir (optional) with no values fail on "url" |
| Scenarios.ResolverBindsByPosition | internal/app/executor/executor.go:40-57 | values "https://x" and "/tmp" bind url and dir, and the action sees exactly that map |
| Scenarios.StatusEndToEnd | internal/app/registry/registry.go:90-100 | registering git status, finding it and running it with nothing gives its action's result on empty maps |
| Scenarios.HomeEnterOpensCategory | internal/tui/screens/home.go:47-56 | from home, enter opens the one category with its one command |
| Scenarios.CategoryEnterOpensDetail | internal/tui/screens/category.go:49-57 | enter on the command pushes its detail entry |
| Scenarios.BrowseBreadcrumb | internal/tui/nav/navigator.go:70-76 | the breadcrumb on that form is "Home > git > status" |
| Scenarios.EscWalksBack | internal/tui/app.go:73-82 | esc walks back one screen at a time and quits at the root |

## Left out

- Fuzzy scoring and ordering (`sahilm/fuzzy`) is an external library. Non-empty queries go through an abstract `Ranker`, so the claim that a candidate matches exactly when the query is a case-insensitive subsequence of its name is not modelled.
- CommandRegistry.FuzzySearch: for a non-empty query it promises only registered commands and valid offsets, not the library's ranking.
- The registry's `sync.RWMutex` and the global singleton are concurrency and process state. The registry is a value passed explicitly.
- The action bodies in `modules/git`, `modules/system` and `modules/http` (`getCmd`, `postCmd`) run processes, call the network and read the OS. The infra adapters and `domain/interfaces.go` only forward to the OS. All of these are opaque.
- Rendering is left out: lipgloss styles, every `View`, and the styled output of `highlight` and `StatusBar`. Only the arithmetic and the plain text are modelled.
- Program startup is left out: `tui.Run` and `RunPalette`, the Cobra tree in `BuildCobraTree` and `root.go`, and the printing and `os.Exit` in `RunE`. So are `config.go` (viper) and `main.go`.
- Domain.ErrorText: Go's `%q` escaping is approximated by plain double quotes, and `%v` of a cause by its text.
- SearchPalette.Highlight: names are taken as single-byte text. Go's `range text` walks runes, so it tests only rune-start offsets and styles a multi-byte rune as one unit. The model marks bytes one by one.
- Strings.ToLower lower-cases ASCII only, not Unicode as `strings.ToLower` does.
- `Fail(nil)` is not modelled: a Dafny failure always carries an error.
- CommandExecutor.ResolveArgs: the last binding of a name wins, as in Go. The contract pins the value of every name's last binder. With distinct names, as the descriptors intend, `SuppliedPositionalsBound` and `MissingOptionalPositional` give the value of every spec.
- CommandExecutor.ResolveArgs: Go binds the earlier positionals before it returns the error. That partial map is discarded, so the model checks for a missing positional first and binds afterwards.
- App.Update: a push message whose payload does not match its screen kind makes Go panic. The model requires well-formed messages instead.
- App.Deliver: Bubble Tea runs commands asynchronously. The model delivers the requested message right after the update that asked for it.
- The confirm dialog is not wired into the app in the source, so it is modelled on its own.
- Window sizes reach only the current screen, as in the source. Screens opened later start at size 0 until the next resize.

## Findings

No defect of the source was established. One behaviour is easy to miss. The command form passes every positional field, even an empty one. So a required argument left empty in the terminal UI reaches the action as "" instead of failing validation (`DetailView.FormNeverMissesPositionals`). The CLI path does fail validation in that case. This looks deliberate, so it is not listed as a defect.

=== FILE: app.dfy ===
/** The root model of the terminal UI: routes messages between the navigator
    and the four screens (internal/tui/app.go). */
module App {
  import opened Options
  import opened Navigation
  import opened Ui
  import HomeView
  import CategoryView
  import DetailView
  import SearchPalette

  /** The root model. The home model always exists; the other three are
      `None` until a screen of their kind is first opened, which is when the
      source first gives them a value other than Go's zero value. */
  datatype AppModel = AppModel(
    nav: Navigator,
    width: int,
    height: int,
    home: HomeView.HomeModel,
    category: Option<CategoryView.CategoryModel>,
    detail: Option<DetailView.DetailModel>,
    search: Option<SearchPalette.SearchModel>)

  /** Some entry of the stack shows a screen of kind `s`. */
  predicate OnStack(n: Navigator, s: Screen)
  {
    exists i :: 0 <= i < |n| && n[i].screen == s
  }

  /** Every screen model is in its own invariant, and every screen kind on the
      stack has a model to delegate to. */
  ghost predicate Valid(env: Env, m: AppModel)
  {
    && HomeView.Valid(m.home)
    && (m.category.Some? ==> CategoryView.Valid(m.category.value))
    && (m.detail.Some? ==> DetailView.Valid(m.detail.value))
    && (m.search.Some? ==> SearchPalette.Valid(env, m.search.value))
    && (OnStack(m.nav, CategoryScreen) ==> m.category.Some?)
    && (OnStack(m.nav, CommandDetailScreen) ==> m.detail.Some?)
    && (OnStack(m.nav, SearchScreen) ==> m.search.Some?)
  }

  /** `newAppModel`: the home screen alone, showing the registry's categories. */
  function NewAppModel(env: Env): (m: AppModel)
    ensures Valid(env, m)
    ensures m.nav == Navigation.New()
    ensures m.home == HomeView.NewHomeModel(env.registry)
  {
    AppModel(Navigation.New(), 0, 0, HomeView.NewHomeModel(env.registry), None, None, None)
  }

  /** `newPaletteModel`: a single root "Palette" search screen in standalone
      mode; the home model keeps Go's zero value. */
  function NewPaletteModel(env: Env): (m: AppModel)
    ensures Valid(env, m)
    ensures m.nav == NewWithInitial(SearchScreen, "Palette")
    ensures m.search == Some(SearchPalette.NewSearchModel(env, true))
  {
    var s := SearchPalette.NewSearchModel(env, true);
    AppModel(NewWithInitial(SearchScreen, "Palette"), 0, 0, HomeView.HomeModel([], 0, 0, 0), None, None, Some(s))
  }

  lemma OnStackPush(n: Navigator, e: Entry, s: Screen)
    ensures OnStack(Push(n, e), s) <==> OnStack(n, s) || e.screen == s
  {
    var n' := Push(n, e);
    if OnStack(n, s) {
      var i :| 0 <= i < |n| && n[i].screen == s;
      assert n'[i] == n[i];
    }
    if OnStack(n', s) && e.screen != s {
      var i :| 0 <= i < |n'| && n'[i].screen == s;
      assert n[i] == n'[i];
    }
  }

  lemma OnStackPop(n: Navigator, s: Screen)
    ensures OnStack(Pop(n).1, s) ==> OnStack(n, s)
  {
    if OnStack(Pop(n).1, s) {
      var i :| 0 <= i < |Pop(n).1| && Pop(n).1[i].screen == s;
      assert n[i] == Pop(n).1[i];
    }
  }

  lemma CurrentOnStack(n: Navigator)
    ensures OnStack(n, Current(n).screen)
  {
    assert n[|n| - 1].screen == Current(n).screen;
  }

  /** The app's reaction to a pushed entry: build the model of the screen it
      opens, from the entry's payload; a home entry builds nothing. */
  function Open(env: Env, m: AppModel, e: Entry): (m': AppModel)
    requires WellFormedEntry(e)
    ensures m'.nav == m.nav && m'.home == m.home && m'.width == m.width && m'.height == m.height
    ensures e.screen == CategoryScreen ==>
              m' == m.(category := Some(CategoryView.NewCategoryModel(env.registry, e.data.category)))
    ensures e.screen == CommandDetailScreen ==> m' == m.(detail := Some(DetailView.NewDetailModel(e.data.cmd)))
    ensures e.screen == SearchScreen ==> m' == m.(search := Some(SearchPalette.NewSearchModel(env, false)))
    ensures e.screen == HomeScreen ==> m' == m
  {
    match e.screen
    case CategoryScreen => m.(category := Some(CategoryView.NewCategoryModel(env.registry, e.data.category)))
    case CommandDetailScreen => m.(detail := Some(DetailView.NewDetailModel(e.data.cmd)))
    case SearchScreen => m.(search := Some(SearchPalette.NewSearchModel(env, false)))
    case HomeScreen => m
  }

  /** Hands `msg` to the current screen's own `Update`, keeping the stack. */
  function Delegate(env: Env, m: AppModel, msg: Msg): (res: (AppModel, Cmd))
    requires Valid(env, m)
    ensures Valid(env, res.0)
    ensures res.0.nav == m.nav && res.0.width == m.width && res.0.height == m.height
    ensures WellFormedCmd(res.1)
    ensures res.1.Quit? ==> Current(m.nav).screen == SearchScreen
    ensures res.1.Send? ==> res.1.msg.PushScreenMsg? || res.1.msg.PopScreenMsg?
    ensures !msg.Key? && !msg.WindowSize? ==> res.1 == NoCmd
  {
    CurrentOnStack(m.nav);
    match Current(m.nav).screen
    case HomeScreen =>
      var (h, c) := HomeView.Update(m.home, msg);
      (m.(home := h), c)
    case CategoryScreen =>
      var (cm, c) := CategoryView.Update(m.category.value, msg);
      (m.(category := Some(cm)), c)
    case CommandDetailScreen =>
      var (d, c) := DetailView.Update(env.exec, m.detail.value, msg);
      (m.(detail := Some(d)), c)
    case SearchScreen =>
      var (s, c) := SearchPalette.Update(env, m.search.value, msg);
      (m.(search := Some(s)), c)
  }

  /** Screens where a printable key is text being typed. */
  predicate Typing(s: Screen)
  {
    s == SearchScreen || s == CommandDetailScreen
  }

  /** `Update`: the global keys first ("ctrl+c" always quits; "q" quits at the
      root unless text is being typed; "/" opens a fresh search unless text is
      being typed; "esc" pops, or quits at the root, except on the search
      screen, which handles it itself), then the navigation messages, and
      everything else to the current screen. */
  function Update(env: Env, m: AppModel, msg: Msg): (res: (AppModel, Cmd))
    requires Valid(env, m) && WellFormedMsg(msg)
    ensures Valid(env, res.0)
    ensures res.0.nav[0] == m.nav[0]
    ensures WellFormedCmd(res.1)
    ensures res.1.Send? ==> res.1.msg.PushScreenMsg? || res.1.msg.PopScreenMsg?
    ensures msg.PushScreenMsg? || msg.PopScreenMsg? ==> res.1 == NoCmd
    ensures res.0.nav == m.nav || res.0.nav == Push(m.nav, Current(res.0.nav)) || res.0.nav == Pop(m.nav).1
  {
    var cur := Current(m.nav).screen;
    match msg
    case WindowSize(w, h) => Delegate(env, m.(width := w, height := h), msg)
    case Key(k) =>
      if k == "ctrl+c" then (m, Quit)
      else if k == "q" && !Typing(cur) && !CanGoBack(m.nav) then (m, Quit)
      else if k == "/" && !Typing(cur) then
        var e := Entry(SearchScreen, "Search", NoData);
        OnStackPush(m.nav, e, CategoryScreen);
        OnStackPush(m.nav, e, CommandDetailScreen);
        OnStackPush(m.nav, e, SearchScreen);
        (m.(search := Some(SearchPalette.NewSearchModel(env, false)), nav := Push(m.nav, e)), NoCmd)
      else if k == "esc" && cur != SearchScreen then
        PopKeepsValid(env, m);
        if Pop(m.nav).0 then (m.(nav := Pop(m.nav).1), NoCmd) else (m, Quit)
      else Delegate(env, m, msg)
    case PushScreenMsg(e) =>
      OnStackPush(m.nav, e, CategoryScreen);
      OnStackPush(m.nav, e, CommandDetailScreen);
      OnStackPush(m.nav, e, SearchScreen);
      (Open(env, m.(nav := Push(m.nav, e)), e), NoCmd)
    case PopScreenMsg =>
      PopKeepsValid(env, m);
      (m.(nav := Pop(m.nav).1), NoCmd)
    case ConfirmResult(_) => Delegate(env, m, msg)
  }

  lemma PopKeepsValid(env: Env, m: AppModel)
    requires Valid(env, m)
    ensures Valid(env, m.(nav := Pop(m.nav).1))
  {
    OnStackPop(m.nav, CategoryScreen);
    OnStackPop(m.nav, CommandDetailScreen);
    OnStackPop(m.nav, SearchScreen);
  }

  /** The global keys, on every screen where they apply. */
  lemma GlobalKeys(env: Env, m: AppModel)
    requires Valid(env, m)
    ensures Update(env, m, Key("ctrl+c")) == (m, Quit)
    ensures !Typing(Current(m.nav).screen) && !CanGoBack(m.nav) ==> Update(env, m, Key("q")) == (m, Quit)
    ensures !Typing(Current(m.nav).screen) ==>
              Update(env, m, Key("/")) == (m.(search := Some(SearchPalette.NewSearchModel(env, false)),
                                              nav := Push(m.nav, Entry(SearchScreen, "Search", NoData))), NoCmd)
    ensures Current(m.nav).screen != SearchScreen && CanGoBack(m.nav) ==>
              Update(env, m, Key("esc")) == (m.(nav := Pop(m.nav).1), NoCmd)
    ensures Current(m.nav).screen != SearchScreen && !CanGoBack(m.nav) ==> Update(env, m, Key("esc")) == (m, Quit)
  {
  }

  /** "q" below the root of the browsing screens, and any key typed into a
      form or the palette, goes to the screen itself. */
  lemma KeysForTheScreen(env: Env, m: AppModel, k: string)
    requires Valid(env, m)
    requires k != "ctrl+c"
    requires Typing(Current(m.nav).screen) || (k == "q" && CanGoBack(m.nav))
    requires k == "esc" ==> Current(m.nav).screen == SearchScreen
    ensures Update(env, m, Key(k)) == Delegate(env, m, Key(k))
  {
  }

  /** Every key other than the global ones goes to the current screen, on
      every screen: the cursor keys and "enter" of the home and category
      screens included. */
  lemma OtherKeysReachTheScreen(env: Env, m: AppModel, k: string)
    requires Valid(env, m)
    requires k !in {"ctrl+c", "q", "/", "esc"}
    ensures Update(env, m, Key(k)) == Delegate(env, m, Key(k))
  {
  }

  /** A window size is recorded by the app and then handed to the current
      screen. */
  lemma WindowSizeReachesTheScreen(env: Env, m: AppModel, w: int, h: int)
    requires Valid(env, m)
    ensures Update(env, m, WindowSize(w, h)) == Delegate(env, m.(width := w, height := h), WindowSize(w, h))
  {
  }

  /** The program stops only on "ctrl+c", on "q" or "esc" at the root, or when
      the palette itself quits. */
  lemma QuitsOnlyWhenAsked(env: Env, m: AppModel, msg: Msg)
    requires Valid(env, m) && WellFormedMsg(msg)
    ensures Update(env, m, msg).1.Quit? ==>
              && msg.Key?
              && (|| msg.key == "ctrl+c"
                  || (msg.key in {"q", "esc"} && !CanGoBack(m.nav))
                  || Current(m.nav).screen == SearchScreen)
  {
  }

  /** In palette mode "esc" quits at once, and "q" is typed into the query
      rather than quitting. */
  lemma PaletteKeys(env: Env)
    ensures Update(env, NewPaletteModel(env), Key("esc")).1 == Quit
    ensures Update(env, NewPaletteModel(env), Key("q")).1 == NoCmd
    ensures Update(env, NewPaletteModel(env), Key("q")).0.search.value.query == "q"
  {
  }

  /** Pushing an entry makes it current and builds its screen; popping
      returns to the entry below. */
  lemma NavigationMessages(env: Env, m: AppModel, e: Entry)
    requires Valid(env, m) && WellFormedEntry(e)
    ensures Update(env, m, PushScreenMsg(e)) == (Open(env, m.(nav := Push(m.nav, e)), e), NoCmd)
    ensures Current(Update(env, m, PushScreenMsg(e)).0.nav) == e
    ensures Update(env, m, PopScreenMsg) == (m.(nav := Pop(m.nav).1), NoCmd)
  {
  }

  /* ---------------------------------------------------------------------- */
  /* The event loop                                                          */
  /* ---------------------------------------------------------------------- */

  /** One message as the runtime handles it: update, then deliver the message
      the update asked for, if any. Reports whether the program quit. */
  function Deliver(env: Env, m: AppModel, msg: Msg): (res: (AppModel, bool))
    requires Valid(env, m) && WellFormedMsg(msg)
    ensures Valid(env, res.0) && res.0.nav[0] == m.nav[0]
    ensures res.1 <==> Update(env, m, msg).1.Quit?
  {
    var (m1, c) := Update(env, m, msg);
    match c
    case Quit => (m1, true)
    case Send(next) => (Update(env, m1, next).0, false)
    case NoCmd => (m1, false)
  }

  /** Messages delivered in order until one quits the program: the final
      model and whether it quit. Only a key press can end the program. */
  function Drive(env: Env, m: AppModel, msgs: seq<Msg>): (res: (AppModel, bool))
    requires Valid(env, m)
    requires forall i :: 0 <= i < |msgs| ==> WellFormedMsg(msgs[i])
    ensures Valid(env, res.0)
    ensures res.0.nav[0] == m.nav[0]
    ensures res.1 ==> exists i :: 0 <= i < |msgs| && msgs[i].Key?
    decreases |msgs|
  {
    if |msgs| == 0 then (m, false)
    else
      QuitsOnlyWhenAsked(env, m, msgs[0]);
      var (next, stop) := Deliver(env, m, msgs[0]);
      if stop then (next, true)
      else
        var rest := Drive(env, next, msgs[1..]);
        assert rest.1 ==> exists i :: 1 <= i < |msgs| && msgs[i].Key? by {
          if rest.1 {
            var j :| 0 <= j < |msgs[1..]| && msgs[1..][j].Key?;
            assert msgs[j + 1].Key?;
          }
        }
        rest
  }
}

=== FILE: category.dfy ===
/** The command list of one category (internal/tui/screens/category.go). */
module CategoryView {
  import opened Domain
  import opened Navigation
  import opened Ui
  import CommandRegistry

  datatype CategoryModel = CategoryModel(category: string, commands: seq<CommandDescriptor>, cursor: int, width: int, height: int)

  predicate Valid(m: CategoryModel)
  {
    CursorIn(m.cursor, |m.commands|)
  }

  /** The entry `enter` asks to push for a command: titled with the bare
      command name. */
  function DetailEntry(d: CommandDescriptor): Entry
  {
    Entry(CommandDetailScreen, d.name, Command(d))
  }

  /** `NewCategoryModel`: the category's commands sorted by name, cursor on
      the first. */
  function NewCategoryModel(reg: CommandRegistry.Registry, category: string): (m: CategoryModel)
    ensures Valid(m) && m.cursor == 0 && m.category == category
    ensures m.commands == CommandRegistry.ByCategory(reg, category)
    ensures forall i :: 0 <= i < |m.commands| ==> m.commands[i].category.name == category
  {
    var cmds := CommandRegistry.ByCategory(reg, category);
    assert forall i :: 0 <= i < |cmds| ==> multiset(cmds)[cmds[i]] > 0;
    CategoryModel(category, cmds, 0, 0, 0)
  }

  /** `Update`: "up"/"k" and "down"/"j" move the cursor within the list;
      "enter" on a non-empty list asks to push the selected command's detail
      screen; everything else leaves the state alone. */
  function Update(m: CategoryModel, msg: Msg): (res: (CategoryModel, Cmd))
    requires Valid(m)
    ensures Valid(res.0)
    ensures WellFormedCmd(res.1) && !res.1.Quit?
    ensures res.0.commands == m.commands && res.0.category == m.category
    ensures !msg.WindowSize? ==> res.0.width == m.width && res.0.height == m.height
    ensures msg.Key? && msg.key in {"up", "k"} ==> res == (m.(cursor := Up(m.cursor)), NoCmd)
    ensures msg.Key? && msg.key in {"down", "j"} ==> res == (m.(cursor := Down(m.cursor, |m.commands|)), NoCmd)
    ensures msg == Key("enter") && |m.commands| > 0
            ==> res == (m, Send(PushScreenMsg(DetailEntry(m.commands[m.cursor]))))
    ensures msg == Key("enter") && |m.commands| == 0 ==> res == (m, NoCmd)
    ensures msg.Key? && msg.key !in {"up", "k", "down", "j", "enter"} ==> res == (m, NoCmd)
  {
    match msg
    case WindowSize(w, h) => (m.(width := w, height := h), NoCmd)
    case Key(k) =>
      if k == "up" || k == "k" then (m.(cursor := Up(m.cursor)), NoCmd)
      else if k == "down" || k == "j" then (m.(cursor := Down(m.cursor, |m.commands|)), NoCmd)
      else if k == "enter" && |m.commands| > 0 then
        (m, Send(PushScreenMsg(DetailEntry(m.commands[m.cursor]))))
      else (m, NoCmd)
    case _ => (m, NoCmd)
  }
}

=== FILE: cli_builder.dfy ===
/** The pure parts of the CLI's leaf commands (internal/cli/builder.go): the
    usage line and the flag map handed to the executor. */
module CliBuilder {
  import opened Options
  import opened Domain
  import CommandExecutor

  /** One positional in the usage line: " <name>" when required, " [name]"
      otherwise. */
  function ArgUsage(a: ArgDef): (u: string)
    ensures |u| == |a.name| + 3
    ensures u[..2] == (if a.required then " <" else " [") && u[2..|u| - 1] == a.name
    ensures u[|u| - 1] == if a.required then '>' else ']'
  {
    if a.required then " <" + a.name + ">" else " [" + a.name + "]"
  }

  /** The usage line of `name` followed by `args`, built left to right. */
  function UsageOf(name: string, args: seq<ArgDef>): (use: string)
    ensures |use| == |name| + UsageWidth(args)
    ensures use[..|name|] == name
    decreases |args|
  {
    if |args| == 0 then name
    else UsageOf(name, args[..|args| - 1]) + ArgUsage(args[|args| - 1])
  }

  /** The characters the positionals add: the name and three delimiters
      each. */
  function UsageWidth(args: seq<ArgDef>): nat
    decreases |args|
  {
    if |args| == 0 then 0 else UsageWidth(args[..|args| - 1]) + |args[|args| - 1].name| + 3
  }

  /** `buildUse`: the command name, then each positional in declared order. */
  function BuildUse(d: CommandDescriptor): (use: string)
    ensures |use| == |d.name| + UsageWidth(d.args)
    ensures use[..|d.name|] == d.name
    ensures |d.args| == 0 ==> use == d.name
  {
    UsageOf(d.name, d.args)
  }

  /** Declaring one more positional appends exactly its own usage. */
  lemma UsageAppends(name: string, args: seq<ArgDef>, a: ArgDef)
    ensures UsageOf(name, args + [a]) == UsageOf(name, args) + ArgUsage(a)
  {
    assert (args + [a])[..|args|] == args;
  }

  /** The usage line of one or two positionals, unfolded. */
  lemma UsageOfTwo(name: string, a: ArgDef, b: ArgDef)
    ensures UsageOf(name, [a]) == name + ArgUsage(a)
    ensures UsageOf(name, [a, b]) == name + ArgUsage(a) + ArgUsage(b)
  {
    assert [a][..0] == [];
    assert [a, b][..1] == [a];
  }

  /** The literal concatenations the examples below spell out. */
  lemma SpelledOut()
    ensures "get" + (" <" + "url" + ">") == "get <url>"
    ensures "post" + (" <" + "url" + ">") + (" [" + "body" + "]") == "post <url> [body]"
  {
  }

  /** The two HTTP commands' usage lines. */
  lemma UsageExamples(get: CommandDescriptor, post: CommandDescriptor)
    requires get.name == "get" && get.args == [ArgDef("url", "", "Request URL", true, "", ArgString)]
    requires post.name == "post"
    requires post.args == [ArgDef("url", "", "Request URL", true, "", ArgString),
                           ArgDef("body", "", "Request body", false, "", ArgString)]
    ensures BuildUse(get) == "get <url>"
    ensures BuildUse(post) == "post <url> [body]"
  {
    var url := ArgDef("url", "", "Request URL", true, "", ArgString);
    var body := ArgDef("body", "", "Request body", false, "", ArgString);
    UsageOfTwo("get", url, body);
    UsageOfTwo("post", url, body);
    SpelledOut();
  }

  /** The flag map `RunE` builds: each declared flag whose value (as the flag
      parser reports it, default included) is non-empty, keyed by its name. */
  function CollectFlags(flags: seq<ArgDef>, valueOf: string -> string): (r: map<string, string>)
    ensures forall k :: k in r ==> r[k] == valueOf(k) && r[k] != ""
    ensures forall k :: k in r ==> exists j :: 0 <= j < |flags| && flags[j].name == k
    ensures forall j :: 0 <= j < |flags| && valueOf(flags[j].name) != "" ==> flags[j].name in r
  {
    var names := CommandExecutor.Names(flags);
    var vals := seq(|flags|, j requires 0 <= j < |flags| =>
                  if valueOf(flags[j].name) != "" then Some(valueOf(flags[j].name)) else None);
    var r := CommandExecutor.BindAll(names, vals);
    assert forall j :: 0 <= j < |flags| && vals[j].Some? ==> CommandExecutor.LaterBindingsAgree(names, vals, j);
    forall k | k in r ensures r[k] == valueOf(k) && r[k] != "" {
      var j := CommandExecutor.LastBinder(names, vals, k);
    }
    r
  }

  /** What a leaf command runs: the executor on the command-line positionals
      and the collected flags. */
  function LeafRun(exec: CommandExecutor.Executor, d: CommandDescriptor, args: seq<string>, valueOf: string -> string): (r: Result<string>)
    ensures (forall i :: !CommandExecutor.MissingRequired(d.args, args, i)) ==>
              r == d.action(CommandExecutor.ContextFor(exec, CommandExecutor.ResolveArgs(d, args).value,
                                                CommandExecutor.ResolveFlags(d, CollectFlags(d.flags, valueOf))))
  {
    CommandExecutor.Run(exec, d, args, CollectFlags(d.flags, valueOf))
  }

  /** On the command line a flag never reaches the action as an empty
      string, and a declared flag with a non-empty parser value reaches it
      with exactly that value. */
  lemma CliFlagsReachTheAction(d: CommandDescriptor, valueOf: string -> string)
    ensures forall k :: k in CommandExecutor.ResolveFlags(d, CollectFlags(d.flags, valueOf))
                        ==> CommandExecutor.ResolveFlags(d, CollectFlags(d.flags, valueOf))[k] != ""
    ensures forall j :: 0 <= j < |d.flags| && valueOf(d.flags[j].name) != "" ==>
              CommandExecutor.ResolveFlags(d, CollectFlags(d.flags, valueOf))[d.flags[j].name] == valueOf(d.flags[j].name)
  {
  }
}

=== FILE: command_detail.dfy ===
/** The command form: edit argument and flag values, run the command, show
    its output (internal/tui/screens/command_detail.go). */
module DetailView {
  import opened Options
  import opened Domain
  import opened Ui
  import CommandExecutor

  /** One input row: the spec it edits, its current text, and whether it is a
      positional argument (true) or a flag (false). */
  datatype Field = Field(def: ArgDef, value: string, isArg: bool)

  datatype DetailModel = DetailModel(
    cmd: CommandDescriptor,
    fields: seq<Field>,
    cursor: int,
    output: string,
    hasError: bool,
    executed: bool,
    width: int,
    height: int)

  /** The field layout the constructor builds and editing keeps: one field per
      positional spec, then one per flag spec, in declared order. */
  predicate FieldsMatch(cmd: CommandDescriptor, fields: seq<Field>)
  {
    && |fields| == |cmd.args| + |cmd.flags|
    && (forall i :: 0 <= i < |cmd.args| ==> fields[i].def == cmd.args[i] && fields[i].isArg)
    && (forall j :: 0 <= j < |cmd.flags| ==> fields[|cmd.args| + j].def == cmd.flags[j] && !fields[|cmd.args| + j].isArg)
  }

  predicate Valid(m: DetailModel)
  {
    CursorIn(m.cursor, |m.fields|) && FieldsMatch(m.cmd, m.fields)
  }

  /** `NewCommandDetailModel`: the fields of `cmd`, each holding its default,
      with the cursor on the first and nothing executed. */
  function NewDetailModel(cmd: CommandDescriptor): (m: DetailModel)
    ensures Valid(m) && m.cmd == cmd && m.cursor == 0 && !m.executed && !m.hasError
    ensures forall i :: 0 <= i < |m.fields| ==> m.fields[i].value == m.fields[i].def.default
  {
    var fields := seq(|cmd.args|, i requires 0 <= i < |cmd.args| => Field(cmd.args[i], cmd.args[i].default, true))
                + seq(|cmd.flags|, j requires 0 <= j < |cmd.flags| => Field(cmd.flags[j], cmd.flags[j].default, false));
    DetailModel(cmd, fields, 0, "", false, false, 0, 0)
  }

  /* ---------------------------------------------------------------------- */
  /* From form fields to executor inputs                                     */
  /* ---------------------------------------------------------------------- */

  /** The positional values, one per positional field, in order, empty ones
      included. */
  function ArgValues(fields: seq<Field>): (vs: seq<string>)
    ensures |vs| <= |fields|
    ensures forall k :: 0 <= k < |vs| ==> exists i :: 0 <= i < |fields| && fields[i].isArg && fields[i].value == vs[k]
    decreases |fields|
  {
    if |fields| == 0 then []
    else (if fields[0].isArg then [fields[0].value] else []) + ArgValues(fields[1..])
  }

  /** The flag bindings of the fields: a non-empty flag field binds its name. */
  function FlagBindings(fields: seq<Field>): (vals: seq<Option<string>>)
    ensures |vals| == |fields|
    ensures forall i :: 0 <= i < |fields| ==>
              vals[i] == if !fields[i].isArg && fields[i].value != "" then Some(fields[i].value) else None
  {
    seq(|fields|, i requires 0 <= i < |fields| =>
      if !fields[i].isArg && fields[i].value != "" then Some(fields[i].value) else None)
  }

  function FieldNames(fields: seq<Field>): (names: seq<string>)
    ensures |names| == |fields|
    ensures forall i :: 0 <= i < |fields| ==> names[i] == fields[i].def.name
  {
    seq(|fields|, i requires 0 <= i < |fields| => fields[i].def.name)
  }

  /** The flag map `execute` builds: non-empty flag values keyed by flag name. */
  function FlagValues(fields: seq<Field>): (flags: map<string, string>)
    ensures forall k :: k in flags ==> flags[k] != ""
    ensures forall k :: k in flags ==> exists i :: 0 <= i < |fields| && !fields[i].isArg && fields[i].def.name == k
    ensures forall i :: 0 <= i < |fields| && !fields[i].isArg && fields[i].value != "" ==> fields[i].def.name in flags
    ensures forall i :: 0 <= i < |fields| && !fields[i].isArg && fields[i].value != ""
                        && CommandExecutor.LaterBindingsAgree(FieldNames(fields), FlagBindings(fields), i)
                        ==> flags[fields[i].def.name] == fields[i].value
  {
    var names := FieldNames(fields);
    var vals := FlagBindings(fields);
    var flags := CommandExecutor.BindAll(names, vals);
    forall k | k in flags ensures flags[k] != "" {
      var j := CommandExecutor.LastBinder(names, vals, k);
    }
    flags
  }

  /** A prefix of positional fields followed only by flag fields yields exactly
      the positional values, in order. */
  lemma {:induction false} ArgValuesOfLayout(fields: seq<Field>, n: nat)
    requires n <= |fields|
    requires forall i :: 0 <= i < n ==> fields[i].isArg
    requires forall i :: n <= i < |fields| ==> !fields[i].isArg
    ensures ArgValues(fields) == seq(n, i requires 0 <= i < n => fields[i].value)
    decreases |fields|
  {
    if |fields| > 0 {
      if n > 0 {
        ArgValuesOfLayout(fields[1..], n - 1);
      } else {
        ArgValuesOfLayout(fields[1..], 0);
      }
    }
  }

  /** The fields after the positional ones are the flag fields, in order. */
  lemma FlagFieldsFollowArgs(cmd: CommandDescriptor, fields: seq<Field>)
    requires FieldsMatch(cmd, fields)
    ensures forall i :: |cmd.args| <= i < |fields| ==> !fields[i].isArg && fields[i].def == cmd.flags[i - |cmd.args|]
  {
    forall i | |cmd.args| <= i < |fields|
      ensures !fields[i].isArg && fields[i].def == cmd.flags[i - |cmd.args|]
    {
      var j := i - |cmd.args|;
      assert 0 <= j < |cmd.flags| && |cmd.args| + j == i;
      assert fields[|cmd.args| + j].def == cmd.flags[j] && !fields[|cmd.args| + j].isArg;
    }
  }

  /** `execute` passes one positional value per positional spec, in order and
      including empty strings. */
  lemma ExecuteArgsMatchSpecs(m: DetailModel)
    requires Valid(m)
    ensures |ArgValues(m.fields)| == |m.cmd.args|
    ensures forall i :: 0 <= i < |m.cmd.args| ==> ArgValues(m.fields)[i] == m.fields[i].value
  {
    FlagFieldsFollowArgs(m.cmd, m.fields);
    ArgValuesOfLayout(m.fields, |m.cmd.args|);
  }

  /** With distinct flag names, a non-empty flag field is passed under its
      own name with its own value. */
  lemma FlagFieldPassed(m: DetailModel, j: int)
    requires Valid(m) && CommandExecutor.UniqueNames(m.cmd.flags)
    requires 0 <= j < |m.cmd.flags| && m.fields[|m.cmd.args| + j].value != ""
    ensures m.cmd.flags[j].name in FlagValues(m.fields)
    ensures FlagValues(m.fields)[m.cmd.flags[j].name] == m.fields[|m.cmd.args| + j].value
  {
    FlagFieldsFollowArgs(m.cmd, m.fields);
    var names, vals := FieldNames(m.fields), FlagBindings(m.fields);
    var i := |m.cmd.args| + j;
    forall l | i < l < |names|
      ensures names[l] != names[i]
    {
      assert names[l] == m.cmd.flags[l - |m.cmd.args|].name;
    }
    assert names[i] == m.cmd.flags[j].name && !m.fields[i].isArg && m.fields[i].def.name == names[i];
    assert CommandExecutor.LaterBindingsAgree(names, vals, i);
  }

  /** `execute` passes only non-empty flag values, keyed by declared flag
      names. */
  lemma ExecuteFlagsMatchSpecs(m: DetailModel)
    requires Valid(m)
    ensures forall k :: k in FlagValues(m.fields) ==>
              (FlagValues(m.fields)[k] != "" && exists j :: 0 <= j < |m.cmd.flags| && m.cmd.flags[j].name == k)
  {
    FlagFieldsFollowArgs(m.cmd, m.fields);
    var flags := FlagValues(m.fields);
    forall k | k in flags
      ensures exists j :: 0 <= j < |m.cmd.flags| && m.cmd.flags[j].name == k
    {
      var i :| 0 <= i < |m.fields| && !m.fields[i].isArg && m.fields[i].def.name == k;
      assert i >= |m.cmd.args|;
      assert m.cmd.flags[i - |m.cmd.args|].name == k;
    }
  }

  /** With distinct flag names, `execute` passes every non-empty flag field
      under its own name with its own value. */
  lemma ExecuteFlagValues(m: DetailModel)
    requires Valid(m)
    ensures CommandExecutor.UniqueNames(m.cmd.flags) ==>
              forall j :: 0 <= j < |m.cmd.flags| && m.fields[|m.cmd.args| + j].value != "" ==>
                m.cmd.flags[j].name in FlagValues(m.fields)
                && FlagValues(m.fields)[m.cmd.flags[j].name] == m.fields[|m.cmd.args| + j].value
  {
    if CommandExecutor.UniqueNames(m.cmd.flags) {
      forall j | 0 <= j < |m.cmd.flags| && m.fields[|m.cmd.args| + j].value != ""
        ensures m.cmd.flags[j].name in FlagValues(m.fields)
        ensures FlagValues(m.fields)[m.cmd.flags[j].name] == m.fields[|m.cmd.args| + j].value
      {
        FlagFieldPassed(m, j);
      }
    }
  }

  /** Since the form passes a value for every positional, even an empty one,
      running from the form never fails the required-argument check: a
      required field left empty reaches the action as "". */
  lemma FormNeverMissesPositionals(m: DetailModel)
    requires Valid(m)
    ensures forall i :: !CommandExecutor.MissingRequired(m.cmd.args, ArgValues(m.fields), i)
    ensures CommandExecutor.ResolveArgs(m.cmd, ArgValues(m.fields)).Ok?
  {
    ExecuteArgsMatchSpecs(m);
  }

  /** `execute`: runs the command on the form's values and shows the result's
      value, or the error's text with the error flag set. */
  function Execute(exec: CommandExecutor.Executor, m: DetailModel): (m': DetailModel)
    ensures m'.executed
    ensures m'.hasError <==> CommandExecutor.Run(exec, m.cmd, ArgValues(m.fields), FlagValues(m.fields)).Fail?
    ensures !m'.hasError ==> m'.output == CommandExecutor.Run(exec, m.cmd, ArgValues(m.fields), FlagValues(m.fields)).value
    ensures m'.hasError ==> m'.output == ErrorText(CommandExecutor.Run(exec, m.cmd, ArgValues(m.fields), FlagValues(m.fields)).err)
    ensures m' == m.(executed := true, output := m'.output, hasError := m'.hasError)
  {
    var result := CommandExecutor.Run(exec, m.cmd, ArgValues(m.fields), FlagValues(m.fields));
    if result.IsOk() then
      m.(executed := true, output := result.Value(), hasError := false)
    else
      m.(executed := true, output := ErrorText(result.err), hasError := true)
  }

  /* ---------------------------------------------------------------------- */
  /* Key handling                                                            */
  /* ---------------------------------------------------------------------- */

  /** The value of field `i` replaced, every other field untouched. */
  function SetValue(fields: seq<Field>, i: nat, v: string): (r: seq<Field>)
    requires i < |fields|
    ensures |r| == |fields|
    ensures r[i] == fields[i].(value := v)
    ensures forall j :: 0 <= j < |fields| && j != i ==> r[j] == fields[j]
  {
    fields[i := fields[i].(value := v)]
  }

  /** Editing a value keeps the field layout. */
  lemma SetValueKeepsLayout(cmd: CommandDescriptor, fields: seq<Field>, i: nat, v: string)
    requires i < |fields| && FieldsMatch(cmd, fields)
    ensures FieldsMatch(cmd, SetValue(fields, i, v))
  {
    var r := SetValue(fields, i, v);
    assert forall j :: 0 <= j < |fields| ==> r[j].def == fields[j].def && r[j].isArg == fields[j].isArg;
    forall j | 0 <= j < |cmd.flags|
      ensures r[|cmd.args| + j].def == cmd.flags[j] && !r[|cmd.args| + j].isArg
    {
      assert |cmd.args| + j < |fields| && |cmd.args| + j != i ==> r[|cmd.args| + j] == fields[|cmd.args| + j];
      assert fields[|cmd.args| + j].def == cmd.flags[j] && !fields[|cmd.args| + j].isArg;
    }
  }

  /** `Update` before execution: moving, editing and running. */
  function UpdateForm(exec: CommandExecutor.Executor, m: DetailModel, k: string): (m': DetailModel)
    requires Valid(m)
    ensures Valid(m') && m'.cmd == m.cmd && m'.width == m.width && m'.height == m.height
  {
    if k == "up" || k == "shift+tab" then m.(cursor := Up(m.cursor))
    else if k == "down" || k == "tab" then m.(cursor := Down(m.cursor, |m.fields|))
    else if k == "enter" then
      if |m.fields| == 0 || m.cursor >= |m.fields| then Execute(exec, m)
      else if m.cursor == |m.fields| - 1 then Execute(exec, m)
      else m.(cursor := m.cursor + 1)
    else if k == "ctrl+r" then Execute(exec, m)
    else if k == "backspace" then
      if |m.fields| > 0 && m.cursor < |m.fields| then
        var v := m.fields[m.cursor].value;
        SetValueKeepsLayout(m.cmd, m.fields, m.cursor, v[..if |v| > 0 then |v| - 1 else 0]);
        if |v| > 0 then m.(fields := SetValue(m.fields, m.cursor, v[..|v| - 1])) else m
      else m
    else if |k| == 1 && |m.fields| > 0 && m.cursor < |m.fields| then
      SetValueKeepsLayout(m.cmd, m.fields, m.cursor, m.fields[m.cursor].value + k);
      m.(fields := SetValue(m.fields, m.cursor, m.fields[m.cursor].value + k))
    else m
  }

  /** `Update`: after execution only "r" does anything; before it, keys move
      the cursor, edit the current field, or run the command. The screen keeps
      its layout and cursor bound, and never asks the runtime for anything. */
  function Update(exec: CommandExecutor.Executor, m: DetailModel, msg: Msg): (res: (DetailModel, Cmd))
    requires Valid(m)
    ensures Valid(res.0) && res.1 == NoCmd
    ensures res.0.cmd == m.cmd
    ensures !msg.WindowSize? ==> res.0.width == m.width && res.0.height == m.height
    ensures !msg.Key? && !msg.WindowSize? ==> res.0 == m
  {
    match msg
    case WindowSize(w, h) => (m.(width := w, height := h), NoCmd)
    case Key(k) =>
      if m.executed then
        if k == "r" then (m.(executed := false, output := "", hasError := false), NoCmd)
        else (m, NoCmd)
      else (UpdateForm(exec, m, k), NoCmd)
    case _ => (m, NoCmd)
  }

  /** Once a result is shown, only "r" changes anything: it clears the result
      and returns to the form. */
  lemma UpdateAfterExecution(exec: CommandExecutor.Executor, m: DetailModel, k: string)
    requires Valid(m) && m.executed
    ensures k == "r" ==> Update(exec, m, Key(k)).0 == m.(executed := false, output := "", hasError := false)
    ensures k != "r" ==> Update(exec, m, Key(k)).0 == m
  {
  }

  /** Up and down move the cursor one step, never past either end. */
  lemma UpdateMovesCursor(exec: CommandExecutor.Executor, m: DetailModel, k: string)
    requires Valid(m) && !m.executed
    ensures k in {"up", "shift+tab"} ==> Update(exec, m, Key(k)).0 == m.(cursor := Up(m.cursor))
    ensures k in {"down", "tab"} ==> Update(exec, m, Key(k)).0 == m.(cursor := Down(m.cursor, |m.fields|))
  {
  }

  /** "enter" runs the command with no fields or on the last field, and
      otherwise advances to the next field; "ctrl+r" always runs it. */
  lemma UpdateEnterRunsOnLastField(exec: CommandExecutor.Executor, m: DetailModel)
    requires Valid(m) && !m.executed
    ensures |m.fields| == 0 || m.cursor == |m.fields| - 1 ==> Update(exec, m, Key("enter")).0 == Execute(exec, m)
    ensures 0 < |m.fields| && m.cursor < |m.fields| - 1 ==> Update(exec, m, Key("enter")).0 == m.(cursor := m.cursor + 1)
    ensures Update(exec, m, Key("ctrl+r")).0 == Execute(exec, m)
  {
    var ran := Execute(exec, m);
    if |m.fields| == 0 || m.cursor == |m.fields| - 1 {
      assert Update(exec, m, Key("enter")).0 == ran;
    } else {
      assert Update(exec, m, Key("enter")).0 == m.(cursor := m.cursor + 1);
    }
    assert Update(exec, m, Key("ctrl+r")).0 == ran;
  }

  /** Backspace drops the last character of the current field and does nothing
      to an empty one; a one-character key other than the ones above is
      appended to the current field. */
  lemma UpdateEditsCurrentField(exec: CommandExecutor.Executor, m: DetailModel, k: string)
    requires Valid(m) && !m.executed && |m.fields| > 0
    ensures var v := m.fields[m.cursor].value;
            && (k == "backspace" && v == "" ==> Update(exec, m, Key(k)).0 == m)
            && (k == "backspace" && v != "" ==> Update(exec, m, Key(k)).0 == m.(fields := SetValue(m.fields, m.cursor, v[..|v| - 1])))
    ensures |k| == 1 ==> Update(exec, m, Key(k)).0 == m.(fields := SetValue(m.fields, m.cursor, m.fields[m.cursor].value + k))
  {
  }

  /** Typing a character appends it to the current field alone, and
      backspace then removes it again. */
  lemma TypeThenBackspace(exec: CommandExecutor.Executor, m: DetailModel, c: char)
    requires Valid(m) && !m.executed && |m.fields| > 0
    ensures var typed := Update(exec, m, Key([c])).0;
            && typed.fields[m.cursor].value == m.fields[m.cursor].value + [c]
            && (forall j :: 0 <= j < |m.fields| && j != m.cursor ==> typed.fields[j] == m.fields[j])
            && Update(exec, typed, Key("backspace")).0 == m
  {
    var v := m.fields[m.cursor].value;
    var typed := Update(exec, m, Key([c])).0;
    var back := Update(exec, typed, Key("backspace")).0;
    assert (v + [c])[..|v + [c]| - 1] == v;
    assert back.fields == m.fields;
  }
}

=== FILE: confirm.dfy ===
/** The yes/no dialog (internal/tui/components/confirm.go). */
module Confirm {
  import opened Ui

  datatype ConfirmModel = ConfirmModel(message: string, yes: bool)

  /** `NewConfirmModel`: "Yes" selected. */
  function NewConfirmModel(message: string): (m: ConfirmModel)
    ensures m.message == message && m.yes
  {
    ConfirmModel(message, true)
  }

  /** The keys that flip the selection, in either direction. */
  predicate IsToggle(k: string)
  {
    k in {"left", "h", "tab", "right", "l"}
  }

  /** `Update`: a toggle key flips the selection; "y" and "n" answer yes and no
      whatever is selected; "enter" answers with the selection; nothing else
      has an effect, and the message never changes. */
  function Update(m: ConfirmModel, msg: Msg): (res: (ConfirmModel, Cmd))
    ensures res.0.message == m.message
    ensures msg.Key? && IsToggle(msg.key) ==> res == (m.(yes := !m.yes), NoCmd)
    ensures msg == Key("y") ==> res == (m, Send(ConfirmResult(true)))
    ensures msg == Key("n") ==> res == (m, Send(ConfirmResult(false)))
    ensures msg == Key("enter") ==> res == (m, Send(ConfirmResult(m.yes)))
    ensures !(msg.Key? && (IsToggle(msg.key) || msg.key in {"y", "n", "enter"})) ==> res == (m, NoCmd)
  {
    match msg
    case Key(k) =>
      if IsToggle(k) then (m.(yes := !m.yes), NoCmd)
      else if k == "y" then (m, Send(ConfirmResult(true)))
      else if k == "n" then (m, Send(ConfirmResult(false)))
      else if k == "enter" then (m, Send(ConfirmResult(m.yes)))
      else (m, NoCmd)
    case _ => (m, NoCmd)
  }

  /** Two toggles restore the selection, so "enter" after them gives the
      answer it would have given before. */
  lemma ToggleTwiceRestores(m: ConfirmModel, k1: string, k2: string)
    requires IsToggle(k1) && IsToggle(k2)
    ensures Update(Update(m, Key(k1)).0, Key(k2)).0 == m
    ensures Update(Update(Update(m, Key(k1)).0, Key(k2)).0, Key("enter")).1 == Update(m, Key("enter")).1
  {
  }

  /** A fresh dialog confirms on "enter", and after one toggle it declines. */
  lemma EnterAnswersSelection(message: string)
    ensures Update(NewConfirmModel(message), Key("enter")).1 == Send(ConfirmResult(true))
    ensures Update(Update(NewConfirmModel(message), Key("tab")).0, Key("enter")).1 == Send(ConfirmResult(false))
  {
  }
}

=== FILE: domain.dfy ===
/** The descriptor model and the success/failure result every command returns
    (internal/domain/command.go, internal/domain/result.go, and the error kinds
    of internal/domain/errors.go). */
module Domain {
  import opened Options

  /** A group of related commands, such as "git" or "http". */
  datatype Category = Category(name: string, description: string, icon: string)

  /** The declared type of an argument; advisory only, the resolver never checks it. */
  datatype ArgType = ArgString | ArgBool | ArgInt

  /** The `iota` value Go gives each `ArgType` constant. */
  function ArgTypeOrdinal(t: ArgType): (n: nat)
    ensures n < 3
  {
    match t
    case ArgString => 0
    case ArgBool => 1
    case ArgInt => 2
  }

  /** `ArgType` has exactly three values, and their ordinals tell them apart. */
  lemma ArgTypeValues(t: ArgType, u: ArgType)
    ensures t == ArgString || t == ArgBool || t == ArgInt
    ensures ArgTypeOrdinal(t) == ArgTypeOrdinal(u) <==> t == u
  {
  }

  /** One positional argument or one flag of a command. An empty `default`
      means "no default"; `short` is the one-letter flag shorthand. */
  datatype ArgDef = ArgDef(
    name: string,
    short: string,
    description: string,
    required: bool,
    default: string,
    argType: ArgType)

  /** Identities of the injected shell runner, file system and HTTP client.
      The adapters themselves are outside the model: an action only passes
      them on. */
  datatype Services = Services(shell: nat, fs: nat, http: nat)

  /** What an action receives: the bound positionals, the bound flags, and the
      collaborators. */
  datatype CommandContext = CommandContext(
    args: map<string, string>,
    flags: map<string, string>,
    services: Services)

  /** A command's behaviour, treated as an opaque function. */
  type Action = CommandContext -> Result<string>

  /** Everything the CLI and the terminal UI need to know about one command. */
  datatype CommandDescriptor = CommandDescriptor(
    category: Category,
    name: string,
    aliases: seq<string>,
    description: string,
    args: seq<ArgDef>,
    flags: seq<ArgDef>,
    action: Action)

  /** The qualified name "category command", e.g. "git clone". */
  function FullName(d: CommandDescriptor): (s: string)
    ensures |s| == |d.category.name| + 1 + |d.name|
    ensures s[..|d.category.name|] == d.category.name
    ensures s[|d.category.name|] == ' '
    ensures s[|d.category.name| + 1..] == d.name
  {
    d.category.name + " " + d.name
  }

  /* ---------------------------------------------------------------------- */
  /* Errors and results                                                      */
  /* ---------------------------------------------------------------------- */

  /** The error kinds of the framework. `Other` stands for any other Go
      `error` value (collaborator failures, `fmt.Errorf` messages). */
  datatype Error =
    | NotFound(name: string)
    | Validation(field: string, message: string)
    | Execution(command: string, cause: Error)
    | Other(text: string)

  /** The `Error()` text of each kind (Go's `%q` is written as plain quotes). */
  function ErrorText(e: Error): (t: string)
    ensures e.NotFound? ==> |e.name| <= |t| && t[|t| - |e.name|..] == e.name
    ensures e.Validation? ==> |e.message| <= |t| && t[|t| - |e.message|..] == e.message
    ensures e.Execution? ==> |ErrorText(e.cause)| <= |t| && t[|t| - |ErrorText(e.cause)|..] == ErrorText(e.cause)
    ensures e.Other? ==> t == e.text
  {
    match e
    case NotFound(n) => "command not found: " + n
    case Validation(f, m) => "validation error for \"" + f + "\": " + m
    case Execution(c, cause) => "execution error in \"" + c + "\": " + ErrorText(cause)
    case Other(t) => t
  }

  /** A success value or an error, never both. */
  datatype Result<+T> = Ok(value: T) | Fail(err: Error) {

    predicate IsOk() {
      Ok?
    }

    /** The success value; Go panics when it is asked of a failure. */
    function Value(): T
      requires IsOk()
    {
      value
    }

    /** The error, or nothing (Go's nil) for a success. */
    function Err(): Option<Error>
    {
      if Ok? then None else Some(err)
    }

    /** The success value, or `fallback` for a failure. */
    function ValueOr(fallback: T): T
    {
      if Ok? then value else fallback
    }
  }

  /** `Failf`: a failure carrying a formatted message. */
  function Failf<T>(message: string): (r: Result<T>)
    ensures !r.IsOk()
    ensures r.Err() == Some(Other(message))
  {
    Fail(Other(message))
  }

  /** A success is ok, carries its value, has no error, and ignores the fallback. */
  lemma OkAccessors<T>(v: T, fallback: T)
    ensures Ok(v).IsOk()
    ensures Ok(v).Value() == v
    ensures Ok(v).Err() == None
    ensures Ok(v).ValueOr(fallback) == v
  {
  }

  /** A failure is not ok, reports its error, and yields the fallback. */
  lemma FailAccessors<T>(e: Error, fallback: T)
    ensures !Result<T>.Fail(e).IsOk()
    ensures Result<T>.Fail(e).Err() == Some(e)
    ensures Result<T>.Fail(e).ValueOr(fallback) == fallback
  {
  }

  /** `ValueOr` agrees with `Value` exactly on the results that are ok. */
  lemma ValueOrAgreesWithValue<T>(r: Result<T>, fallback: T)
    ensures r.IsOk() ==> r.ValueOr(fallback) == r.Value()
    ensures !r.IsOk() ==> r.ValueOr(fallback) == fallback
    ensures r.IsOk() <==> r.Err().None?
  {
  }
}

=== FILE: executor.dfy ===
/** Argument and flag resolution, and command execution
    (internal/app/executor/executor.go). */
module CommandExecutor {
  import opened Options
  import opened Domain

  /** The executor only holds the collaborators it hands to every action. */
  datatype Executor = Executor(services: Services)

  /* ---------------------------------------------------------------------- */
  /* Binding names to values, one spec at a time                             */
  /* ---------------------------------------------------------------------- */

  /** Every later binding of the name bound at `j` either binds nothing or
      binds the same value (trivially so when `j` is the last use of its name). */
  ghost predicate LaterBindingsAgree(names: seq<string>, vals: seq<Option<string>>, j: int)
    requires |names| == |vals| && 0 <= j < |names|
  {
    forall l :: j < l < |names| && names[l] == names[j] && vals[l].Some? ==> vals[l] == vals[j]
  }

  /** The map the source's loop builds by assigning each spec's value under
      its name: spec `j` binds `names[j]` to `vals[j]` when there is one, later specs overwriting
      earlier ones. */
  function BindAll(names: seq<string>, vals: seq<Option<string>>): (m: map<string, string>)
    requires |names| == |vals|
    ensures forall k :: k in m ==> exists j :: 0 <= j < |names| && names[j] == k && vals[j].Some?
    ensures forall j :: 0 <= j < |names| && vals[j].Some? ==> names[j] in m
    ensures forall j :: 0 <= j < |names| && vals[j].Some? && LaterBindingsAgree(names, vals, j) ==> m[names[j]] == vals[j].value
    decreases |names|
  {
    if |names| == 0 then map[]
    else
      var n := |names| - 1;
      var prev := BindAll(names[..n], vals[..n]);
      var m := if vals[n].Some? then prev[names[n] := vals[n].value] else prev;
      assert forall j :: 0 <= j < n ==> names[..n][j] == names[j] && vals[..n][j] == vals[j];
      assert forall j :: 0 <= j < n && LaterBindingsAgree(names, vals, j) ==> LaterBindingsAgree(names[..n], vals[..n], j);
      m
  }

  /** The names of a list of specs, in order. */
  function Names(specs: seq<ArgDef>): (names: seq<string>)
    ensures |names| == |specs|
    ensures forall i :: 0 <= i < |specs| ==> names[i] == specs[i].name
  {
    seq(|specs|, i requires 0 <= i < |specs| => specs[i].name)
  }

  /** No two specs share a name, as the descriptor model intends. */
  ghost predicate UniqueNames(specs: seq<ArgDef>)
  {
    forall i, j :: 0 <= i < j < |specs| ==> specs[i].name != specs[j].name
  }

  /* ---------------------------------------------------------------------- */
  /* Positional arguments                                                    */
  /* ---------------------------------------------------------------------- */

  /** Positional `i` was not supplied and is required. */
  predicate MissingRequired(specs: seq<ArgDef>, provided: seq<string>, i: int)
  {
    |provided| <= i < |specs| && specs[i].required
  }

  /** The value positional `i` gets when nothing required is missing: the
      supplied value, else a non-empty default, else none. */
  function ArgBinding(specs: seq<ArgDef>, provided: seq<string>, i: nat): Option<string>
    requires i < |specs|
  {
    if i < |provided| then Some(provided[i])
    else if specs[i].default != "" then Some(specs[i].default)
    else None
  }

  function ArgBindings(specs: seq<ArgDef>, provided: seq<string>): (vals: seq<Option<string>>)
    ensures |vals| == |specs|
    ensures forall i :: 0 <= i < |specs| ==> vals[i] == ArgBinding(specs, provided, i)
  {
    seq(|specs|, i requires 0 <= i < |specs| => ArgBinding(specs, provided, i))
  }

  /** The index-by-index walk from `i` for a required positional with no value. */
  function FirstMissingFrom(specs: seq<ArgDef>, provided: seq<string>, i: nat): (r: Option<nat>)
    requires i <= |specs|
    ensures r.None? <==> forall j :: i <= j < |specs| ==> !MissingRequired(specs, provided, j)
    ensures r.Some? ==> i <= r.value && MissingRequired(specs, provided, r.value)
                        && forall j :: i <= j < r.value ==> !MissingRequired(specs, provided, j)
    decreases |specs| - i
  {
    if i == |specs| then None
    else if MissingRequired(specs, provided, i) then Some(i)
    else FirstMissingFrom(specs, provided, i + 1)
  }

  /** The validation error for a missing required positional. */
  function MissingArgument(name: string): (e: Error)
    ensures e.Validation? && e.field == name
    ensures ErrorText(e) == "validation error for \"" + name + "\": required argument \"" + name + "\" is missing"
  {
    Validation(name, "required argument \"" + name + "\" is missing")
  }

  /** `resolveArgs`: fails naming the first required positional with no value;
      otherwise binds every supplied value by position, fills non-empty
      defaults, and leaves the rest unbound. Surplus values are ignored. */
  function ResolveArgs(cmd: CommandDescriptor, provided: seq<string>): (r: Result<map<string, string>>)
    ensures r.Fail? <==> exists i :: MissingRequired(cmd.args, provided, i)
    ensures r.Fail? ==> exists i :: MissingRequired(cmd.args, provided, i)
                                    && (forall j :: 0 <= j < i ==> !MissingRequired(cmd.args, provided, j))
                                    && r.err == MissingArgument(cmd.args[i].name)
    ensures r.Ok? ==> forall k :: k in r.value ==> exists j :: 0 <= j < |cmd.args| && cmd.args[j].name == k
                                                             && ArgBinding(cmd.args, provided, j).Some?
    ensures r.Ok? ==> forall j :: 0 <= j < |cmd.args| && ArgBinding(cmd.args, provided, j).Some? ==> cmd.args[j].name in r.value
    ensures r.Ok? ==> forall j :: 0 <= j < |cmd.args| && ArgBinding(cmd.args, provided, j).Some?
                                  && LaterBindingsAgree(Names(cmd.args), ArgBindings(cmd.args, provided), j)
                                  ==> r.value[cmd.args[j].name] == ArgBinding(cmd.args, provided, j).value
  {
    match FirstMissingFrom(cmd.args, provided, 0)
    case Some(i) => Fail(MissingArgument(cmd.args[i].name))
    case None => Ok(BindAll(Names(cmd.args), ArgBindings(cmd.args, provided)))
  }

  /** With distinct names, every supplied positional is bound by position. */
  lemma SuppliedPositionalsBound(cmd: CommandDescriptor, provided: seq<string>, i: nat)
    requires UniqueNames(cmd.args)
    requires ResolveArgs(cmd, provided).Ok?
    requires i < |cmd.args| && i < |provided|
    ensures ResolveArgs(cmd, provided).value[cmd.args[i].name] == provided[i]
  {
    assert ArgBinding(cmd.args, provided, i) == Some(provided[i]);
    assert LaterBindingsAgree(Names(cmd.args), ArgBindings(cmd.args, provided), i);
  }

  /** With distinct names, an unsupplied optional positional gets its default
      when that is non-empty and is absent from the map otherwise. */
  lemma MissingOptionalPositional(cmd: CommandDescriptor, provided: seq<string>, i: nat)
    requires UniqueNames(cmd.args)
    requires |provided| <= i < |cmd.args|
    requires ResolveArgs(cmd, provided).Ok?
    ensures !cmd.args[i].required
    ensures cmd.args[i].default != "" ==> ResolveArgs(cmd, provided).value[cmd.args[i].name] == cmd.args[i].default
    ensures cmd.args[i].default == "" ==> cmd.args[i].name !in ResolveArgs(cmd, provided).value
  {
    var specs := cmd.args;
    var m := ResolveArgs(cmd, provided).value;
    assert !MissingRequired(specs, provided, i);
    assert forall j :: 0 <= j < |specs| && specs[j].name == specs[i].name ==> j == i;
    if specs[i].default != "" {
      assert ArgBinding(specs, provided, i).Some?;
      assert LaterBindingsAgree(Names(specs), ArgBindings(specs, provided), i);
    }
  }

  /* ---------------------------------------------------------------------- */
  /* Flags                                                                   */
  /* ---------------------------------------------------------------------- */

  /** The value flag `spec` gets: the supplied one (even if empty), else a
      non-empty default, else none. `required` is never consulted. */
  function FlagBinding(spec: ArgDef, provided: map<string, string>): Option<string>
  {
    if spec.name in provided then Some(provided[spec.name])
    else if spec.default != "" then Some(spec.default)
    else None
  }

  function FlagBindings(specs: seq<ArgDef>, provided: map<string, string>): (vals: seq<Option<string>>)
    ensures |vals| == |specs|
    ensures forall i :: 0 <= i < |specs| ==> vals[i] == FlagBinding(specs[i], provided)
  {
    seq(|specs|, i requires 0 <= i < |specs| => FlagBinding(specs[i], provided))
  }

  /** `resolveFlags`: every declared flag that was supplied keeps its supplied
      value, even the empty string; an unsupplied flag gets its non-empty
      default; supplied names that are not declared are dropped. */
  function ResolveFlags(cmd: CommandDescriptor, provided: map<string, string>): (r: map<string, string>)
    ensures forall k :: k in r ==> exists j :: 0 <= j < |cmd.flags| && cmd.flags[j].name == k
    ensures forall j :: 0 <= j < |cmd.flags| && cmd.flags[j].name in provided
                        ==> cmd.flags[j].name in r && r[cmd.flags[j].name] == provided[cmd.flags[j].name]
    ensures forall j :: 0 <= j < |cmd.flags| && cmd.flags[j].name !in provided && cmd.flags[j].default != ""
                        ==> cmd.flags[j].name in r
    ensures forall k :: k in r && k !in provided ==>
              exists j :: 0 <= j < |cmd.flags| && cmd.flags[j].name == k && r[k] == cmd.flags[j].default && cmd.flags[j].default != ""
  {
    var names := Names(cmd.flags);
    var vals := FlagBindings(cmd.flags, provided);
    var r := BindAll(names, vals);
    assert forall j :: 0 <= j < |cmd.flags| && cmd.flags[j].name in provided ==> LaterBindingsAgree(names, vals, j);
    forall k | k in r && k !in provided
      ensures exists j :: 0 <= j < |cmd.flags| && cmd.flags[j].name == k && r[k] == cmd.flags[j].default && cmd.flags[j].default != ""
    {
      var j := LastBinder(names, vals, k);
    }
    r
  }

  /** The last spec that binds `k` exists when some spec binds it. */
  lemma LastBinder(names: seq<string>, vals: seq<Option<string>>, k: string) returns (j: nat)
    requires |names| == |vals|
    requires exists i :: 0 <= i < |names| && names[i] == k && vals[i].Some?
    ensures j < |names| && names[j] == k && vals[j].Some?
    ensures LaterBindingsAgree(names, vals, j)
  {
    j :| 0 <= j < |names| && names[j] == k && vals[j].Some?;
    while exists l :: j < l < |names| && names[l] == k && vals[l].Some?
      invariant j < |names| && names[j] == k && vals[j].Some?
      decreases |names| - j
    {
      var l :| j < l < |names| && names[l] == k && vals[l].Some?;
      j := l;
    }
  }

  /* ---------------------------------------------------------------------- */
  /* Run                                                                     */
  /* ---------------------------------------------------------------------- */

  /** The context handed to the action after a successful bind. */
  function ContextFor(exec: Executor, args: map<string, string>, flags: map<string, string>): CommandContext
  {
    CommandContext(args, flags, exec.services)
  }

  /** `Run`: when a required positional is missing, fails with the validation
      error naming the first such positional and never reaches the action;
      otherwise returns exactly what the action returns for the resolved
      maps. Flags never cause a failure. */
  function Run(exec: Executor, cmd: CommandDescriptor, args: seq<string>, flags: map<string, string>): (r: Result<string>)
    ensures (exists i :: MissingRequired(cmd.args, args, i)) ==>
              exists i :: MissingRequired(cmd.args, args, i)
                          && (forall j :: 0 <= j < i ==> !MissingRequired(cmd.args, args, j))
                          && r == Fail(MissingArgument(cmd.args[i].name))
    ensures (forall i :: !MissingRequired(cmd.args, args, i)) ==>
              ResolveArgs(cmd, args).Ok?
              && r == cmd.action(ContextFor(exec, ResolveArgs(cmd, args).value, ResolveFlags(cmd, flags)))
  {
    match ResolveArgs(cmd, args)
    case Fail(e) => Fail(e)
    case Ok(resolved) => cmd.action(ContextFor(exec, resolved, ResolveFlags(cmd, flags)))
  }

  /** A failed bind never consults the action: any other action gives the
      same result. */
  lemma ValidationFailureSkipsAction(exec: Executor, cmd: CommandDescriptor, other: Action, args: seq<string>, flags: map<string, string>)
    requires exists i :: MissingRequired(cmd.args, args, i)
    ensures Run(exec, cmd.(action := other), args, flags) == Run(exec, cmd, args, flags)
    ensures Run(exec, cmd, args, flags).Fail? && Run(exec, cmd, args, flags).err.Validation?
  {
  }

  /** Flags never affect whether `Run` fails validation. */
  lemma FlagsNeverRequired(exec: Executor, cmd: CommandDescriptor, args: seq<string>, flags: map<string, string>)
    requires forall i :: !MissingRequired(cmd.args, args, i)
    ensures ResolveArgs(cmd, args).Ok?
    ensures Run(exec, cmd, args, flags) == cmd.action(ContextFor(exec, ResolveArgs(cmd, args).value, ResolveFlags(cmd, flags)))
  {
  }
}

=== FILE: home.dfy ===
/** The category list shown first (internal/tui/screens/home.go). */
module HomeView {
  import opened Domain
  import opened Navigation
  import opened Ui
  import CommandRegistry

  datatype HomeModel = HomeModel(categories: seq<Category>, cursor: int, width: int, height: int)

  predicate Valid(m: HomeModel)
  {
    CursorIn(m.cursor, |m.categories|)
  }

  /** The entry `enter` asks to push for a category. */
  function CategoryEntry(c: Category): Entry
  {
    Entry(CategoryScreen, c.name, CategoryName(c.name))
  }

  /** `NewHomeModel`: the registry's categories, cursor on the first. */
  function NewHomeModel(reg: CommandRegistry.Registry): (m: HomeModel)
    ensures Valid(m) && m.cursor == 0
    ensures m.categories == CommandRegistry.Categories(reg)
  {
    HomeModel(CommandRegistry.Categories(reg), 0, 0, 0)
  }

  /** `Update`: "up"/"k" and "down"/"j" move the cursor within the list;
      "enter" on a non-empty list asks to push the selected category, whose
      title and payload are both its name; nothing else changes the list. */
  function Update(m: HomeModel, msg: Msg): (res: (HomeModel, Cmd))
    requires Valid(m)
    ensures Valid(res.0)
    ensures WellFormedCmd(res.1) && !res.1.Quit?
    ensures res.0.categories == m.categories
    ensures !msg.WindowSize? ==> res.0.width == m.width && res.0.height == m.height
    ensures msg.Key? && msg.key in {"up", "k"} ==> res == (m.(cursor := Up(m.cursor)), NoCmd)
    ensures msg.Key? && msg.key in {"down", "j"} ==> res == (m.(cursor := Down(m.cursor, |m.categories|)), NoCmd)
    ensures msg == Key("enter") && |m.categories| > 0
            ==> res == (m, Send(PushScreenMsg(CategoryEntry(m.categories[m.cursor]))))
    ensures msg == Key("enter") && |m.categories| == 0 ==> res == (m, NoCmd)
    ensures msg.Key? && msg.key !in {"up", "k", "down", "j", "enter"} ==> res == (m, NoCmd)
  {
    match msg
    case WindowSize(w, h) => (m.(width := w, height := h), NoCmd)
    case Key(k) =>
      if k == "up" || k == "k" then (m.(cursor := Up(m.cursor)), NoCmd)
      else if k == "down" || k == "j" then (m.(cursor := Down(m.cursor, |m.categories|)), NoCmd)
      else if k == "enter" && |m.categories| > 0 then
        (m, Send(PushScreenMsg(CategoryEntry(m.categories[m.cursor]))))
      else (m, NoCmd)
    case _ => (m, NoCmd)
  }

  /** The icon shown before a category: its own, or ">" when it has none. */
  function DisplayIcon(c: Category): (icon: string)
    ensures icon != ""
    ensures c.icon != "" ==> icon == c.icon
    ensures c.icon == "" ==> icon == ">"
  {
    if c.icon == "" then ">" else c.icon
  }
}

=== FILE: http_headers.dfy ===
/** The header splitter of the HTTP commands
    (internal/modules/http/commands.go, `parseHeaders`). */
module HttpHeaders {
  import opened Options

  /** The offset of the first ':' in `s`, if any. */
  function FirstColon(s: string): (r: Option<nat>)
    ensures r.None? <==> ':' !in s
    ensures r.Some? ==> r.value < |s| && s[r.value] == ':' && ':' !in s[..r.value]
    decreases |s|
  {
    if |s| == 0 then None
    else if s[0] == ':' then Some(0)
    else
      match FirstColon(s[1..])
      case None => None
      case Some(i) =>
        assert s[..i + 1] == [s[0]] + s[1..][..i];
        Some(i + 1)
  }

  /** At most one space after the colon is dropped. */
  function StripOneSpace(v: string): (r: string)
    ensures |v| > 0 && v[0] == ' ' ==> v == " " + r
    ensures !(|v| > 0 && v[0] == ' ') ==> r == v
  {
    if |v| > 0 && v[0] == ' ' then v[1..] else v
  }

  /** `parseHeaders`: one header at most, split at the first ':'; the key is
      everything before it (possibly empty), the value everything after it
      less one leading space, later colons included. No colon, no header. */
  function ParseHeaders(raw: string): (h: map<string, string>)
    ensures ':' !in raw ==> h == map[]
    ensures forall i :: 0 <= i < |raw| && raw[i] == ':' && ':' !in raw[..i] ==>
              h == map[raw[..i] := StripOneSpace(raw[i + 1..])]
  {
    if raw == "" then map[]
    else
      match FirstColon(raw)
      case None => map[]
      case Some(i) =>
        assert forall j :: 0 <= j < |raw| && raw[j] == ':' && ':' !in raw[..j] ==> j == i;
        map[raw[..i] := StripOneSpace(raw[i + 1..])]
  }

  /** A header written the conventional way, "key: value" with a colon-free
      key, parses back to exactly that key and value, whatever the value
      holds; so does the unspaced "key:value" when the value does not start
      with a space. */
  lemma HeaderRoundTrip(key: string, value: string)
    requires ':' !in key
    ensures ParseHeaders(key + ": " + value) == map[key := value]
    ensures |value| == 0 || value[0] != ' ' ==> ParseHeaders(key + ":" + value) == map[key := value]
  {
    var spaced := key + ": " + value;
    assert spaced[|key|] == ':' && spaced[..|key|] == key;
    assert spaced[|key| + 1..] == " " + value;
    var plain := key + ":" + value;
    assert plain[|key|] == ':' && plain[..|key|] == key;
    assert plain[|key| + 1..] == value;
  }

  /** The parsed key never holds a colon, and the parse never yields more
      than one header. */
  lemma KeyIsColonFree(raw: string)
    ensures |ParseHeaders(raw)| <= 1
    ensures forall k :: k in ParseHeaders(raw) ==> ':' !in k
  {
    match FirstColon(raw)
    case None =>
    case Some(i) =>
      assert ParseHeaders(raw) == map[raw[..i] := StripOneSpace(raw[i + 1..])];
      assert ParseHeaders(raw).Keys == {raw[..i]};
  }

  /** A second colon stays in the value. */
  lemma LaterColonsKept()
    ensures ParseHeaders("Host: a:b") == map["Host" := "a:b"]
  {
    HeaderRoundTrip("Host", "a:b");
    assert "Host" + ": " + "a:b" == "Host: a:b";
  }

  /** Only one space after the colon is dropped. */
  lemma OneSpaceDropped()
    ensures ParseHeaders("X:  y") == map["X" := " y"]
  {
    HeaderRoundTrip("X", " y");
    assert "X" + ": " + " y" == "X:  y";
  }

  /** The key may be empty. */
  lemma EmptyKey()
    ensures ParseHeaders(":v") == map["" := "v"]
  {
    HeaderRoundTrip("", "v");
    assert "" + ":" + "v" == ":v";
  }
}

=== FILE: navigator.dfy ===
/** The screen stack of the terminal UI (internal/tui/nav/navigator.go). */
module Navigation {
  import opened Strings
  import opened Domain

  datatype Screen = HomeScreen | CategoryScreen | CommandDetailScreen | SearchScreen

  /** The screen-specific context Go stores in `Data any`: nothing, a category
      name, or a chosen command. */
  datatype EntryData = NoData | CategoryName(category: string) | Command(cmd: CommandDescriptor)

  /** One screen on the stack. */
  datatype Entry = Entry(screen: Screen, title: string, data: EntryData)

  /** The stack, root first and current screen last. It is never empty. */
  type Navigator = s: seq<Entry> | |s| > 0 witness [Entry(HomeScreen, "Home", NoData)]

  /** `New`: the home screen alone. */
  function New(): (n: Navigator)
    ensures |n| == 1 && Current(n) == Entry(HomeScreen, "Home", NoData)
  {
    [Entry(HomeScreen, "Home", NoData)]
  }

  /** `NewWithInitial`: a custom single root screen. */
  function NewWithInitial(screen: Screen, title: string): (n: Navigator)
    ensures |n| == 1 && Current(n) == Entry(screen, title, NoData)
  {
    [Entry(screen, title, NoData)]
  }

  /** `Current`: the top entry, always defined since the stack is never empty. */
  function Current(n: Navigator): (e: Entry)
    ensures e in n
    ensures |n| == 1 ==> e == n[0]
  {
    n[|n| - 1]
  }

  /** `Push`: always succeeds, and the pushed entry becomes current. */
  function Push(n: Navigator, e: Entry): (n': Navigator)
    ensures |n'| == |n| + 1
    ensures Current(n') == e
    ensures n'[..|n|] == n
  {
    n + [e]
  }

  /** `Pop`: removes the top entry and reports true, unless the stack holds
      only the root, which is kept and false reported. */
  function Pop(n: Navigator): (res: (bool, Navigator))
    ensures res.0 <==> |n| > 1
    ensures res.0 ==> |res.1| == |n| - 1 && res.1 == n[..|n| - 1]
    ensures !res.0 ==> res.1 == n
    ensures res.1[0] == n[0]
  {
    if |n| <= 1 then (false, n) else (true, n[..|n| - 1])
  }

  /** `CanGoBack`: there is a screen below the current one. */
  function CanGoBack(n: Navigator): (b: bool)
    ensures b <==> Pop(n).0
    ensures b <==> Pop(n).1 != n
  {
    |n| > 1
  }

  /** `Breadcrumb`: the titles, root to top, joined with " > ". */
  function Breadcrumb(n: Navigator): (b: string)
    ensures |n| == 1 ==> b == n[0].title
    ensures |n[0].title| <= |b| && b[..|n[0].title|] == n[0].title
    ensures |Current(n).title| <= |b| && b[|b| - |Current(n).title|..] == Current(n).title
  {
    JoinEnds(Titles(n), " > ");
    Join(Titles(n), " > ")
  }

  function Titles(n: seq<Entry>): (ts: seq<string>)
    ensures |ts| == |n|
    ensures forall i :: 0 <= i < |n| ==> ts[i] == n[i].title
  {
    seq(|n|, i requires 0 <= i < |n| => n[i].title)
  }

  /** Push followed by Pop succeeds and restores the stack. */
  lemma PushThenPop(n: Navigator, e: Entry)
    ensures Pop(Push(n, e)) == (true, n)
  {
  }

  /** At the root, Pop fails and changes nothing. */
  lemma PopAtRoot(n: Navigator)
    requires |n| == 1
    ensures Pop(n) == (false, n)
  {
  }

  /** `CanGoBack` tells exactly when `Pop` would succeed. */
  lemma CanGoBackIffPopSucceeds(n: Navigator)
    ensures CanGoBack(n) <==> Pop(n).0
  {
  }

  /** The breadcrumb of a fresh navigator is its one title, and each push adds
      " > " and the new title at the end. */
  lemma BreadcrumbGrowsWithPush(n: Navigator, e: Entry)
    ensures Breadcrumb(New()) == "Home"
    ensures Breadcrumb(Push(n, e)) == Breadcrumb(n) + " > " + e.title
  {
    var ts := Titles(Push(n, e));
    assert ts[..|ts| - 1] == Titles(n);
  }

  /** Pop undoes the breadcrumb growth of Push. */
  lemma BreadcrumbAfterPop(n: Navigator, e: Entry)
    ensures Breadcrumb(Pop(Push(n, e)).1) == Breadcrumb(n)
  {
    PushThenPop(n, e);
  }

  /** A round trip through the screens: Home, push a category, push
      a command, pop twice, and a third pop fails at Home; on the way the
      breadcrumb reads "Home > git > clone". */
  lemma NavigationScenario(d: CommandDescriptor)
    ensures var home := New();
            var cat := Push(home, Entry(CategoryScreen, "git", CategoryName("git")));
            var detail := Push(cat, Entry(CommandDetailScreen, "clone", Command(d)));
            && Breadcrumb(detail) == "Home > git > clone"
            && Pop(detail) == (true, cat)
            && Pop(cat) == (true, home)
            && Pop(home) == (false, home)
  {
    var home := New();
    var cat := Push(home, Entry(CategoryScreen, "git", CategoryName("git")));
    var detail := Push(cat, Entry(CommandDetailScreen, "clone", Command(d)));
    BreadcrumbGrowsWithPush(home, Entry(CategoryScreen, "git", CategoryName("git")));
    BreadcrumbGrowsWithPush(cat, Entry(CommandDetailScreen, "clone", Command(d)));
  }
}

=== FILE: options.dfy ===
/** The optional value used wherever the Go code returns a `(value, ok)` pair,
    a nil error, or an absent map entry. */
module Options {

  datatype Option<+T> = None | Some(value: T)
}

=== FILE: registry.dfy ===
/** The command catalog (internal/app/registry/registry.go), as an explicitly
    passed value instead of a locked process-wide singleton. */
module CommandRegistry {
  import opened Options
  import opened Strings
  import opened Seqs
  import opened Domain

  /** The registered descriptors, in registration order. */
  datatype Registry = Registry(commands: seq<CommandDescriptor>)

  /** An empty catalog. */
  function New(): (r: Registry)
    ensures |All(r)| == 0
  {
    Registry([])
  }

  /** Appends `cmds`, in call order; duplicates are kept. */
  function Register(r: Registry, cmds: seq<CommandDescriptor>): (r': Registry)
    ensures All(r') == All(r) + cmds
  {
    Registry(r.commands + cmds)
  }

  /** A snapshot of every registered descriptor, in registration order. */
  function All(r: Registry): (cmds: seq<CommandDescriptor>)
    ensures |cmds| == |r.commands|
    ensures forall i :: 0 <= i < |cmds| ==> cmds[i] == r.commands[i]
  {
    r.commands
  }

  /** The batches of several `Register` calls, laid end to end. */
  function Flatten(batches: seq<seq<CommandDescriptor>>): seq<CommandDescriptor>
  {
    if |batches| == 0 then [] else Flatten(batches[..|batches| - 1]) + batches[|batches| - 1]
  }

  /** One `Register` call per batch, in order. */
  function RegisterEach(r: Registry, batches: seq<seq<CommandDescriptor>>): Registry
  {
    if |batches| == 0 then r else Register(RegisterEach(r, batches[..|batches| - 1]), batches[|batches| - 1])
  }

  /** After any sequence of `Register` calls, `All` is the old catalog followed
      by exactly the registered descriptors in call order: nothing is lost,
      reordered or merged. */
  lemma {:induction false} RegisterKeepsCallOrder(r: Registry, batches: seq<seq<CommandDescriptor>>)
    ensures All(RegisterEach(r, batches)) == All(r) + Flatten(batches)
  {
    if |batches| > 0 {
      RegisterKeepsCallOrder(r, batches[..|batches| - 1]);
    }
  }

  /* ---------------------------------------------------------------------- */
  /* Categories                                                              */
  /* ---------------------------------------------------------------------- */

  /** Names strictly increase, so no name occurs twice. */
  predicate StrictlySortedByName(cats: seq<Category>)
  {
    forall i, j :: 0 <= i < j < |cats| ==> Less(cats[i].name, cats[j].name)
  }

  /** No later command in `cmds` has the category name of `cmds[i]`. */
  ghost predicate LastOfItsCategory(cmds: seq<CommandDescriptor>, i: int)
    requires 0 <= i < |cmds|
  {
    forall j :: i < j < |cmds| ==> cmds[j].category.name != cmds[i].category.name
  }

  /** Puts `c` into a name-sorted list, replacing the entry of the same name:
      the source's map keyed by category name, overwritten by later commands,
      kept in sorted form. */
  function Upsert(cats: seq<Category>, c: Category): (r: seq<Category>)
    requires StrictlySortedByName(cats)
    ensures StrictlySortedByName(r)
    ensures c in r
    ensures forall x :: x in r ==> x == c || (x in cats && x.name != c.name)
    ensures forall x :: x in cats && x.name != c.name ==> x in r
    decreases |cats|
  {
    if |cats| == 0 then [c]
    else if cats[0].name == c.name then
      assert forall x :: x in cats[1..] ==> x in cats && x.name != c.name by {
        forall x | x in cats[1..] ensures x in cats && x.name != c.name {
          var k :| 0 <= k < |cats[1..]| && cats[1..][k] == x;
          assert cats[k + 1] == x;
          LessIrreflexive(c.name);
        }
      }
      [c] + cats[1..]
    else if Less(c.name, cats[0].name) then
      assert forall j :: 0 <= j < |cats| ==> Less(c.name, cats[j].name) by {
        forall j | 0 < j < |cats| {
          LessTransitive(c.name, cats[0].name, cats[j].name);
        }
      }
      assert forall x :: x in cats ==> x.name != c.name by {
        LessIrreflexive(c.name);
      }
      [c] + cats
    else
      LessTotal(c.name, cats[0].name);
      var rest := Upsert(cats[1..], c);
      assert forall x :: x in rest ==> Less(cats[0].name, x.name) by {
        forall x | x in rest ensures Less(cats[0].name, x.name) {
          if x != c {
            var k :| 0 <= k < |cats[1..]| && cats[1..][k] == x;
            assert cats[k + 1] == x;
          }
        }
      }
      var r := [cats[0]] + rest;
      assert forall i :: 0 < i < |r| ==> r[i] == rest[i - 1];
      assert forall i :: 0 < i < |r| ==> r[i] in rest;
      r
  }

  /** The distinct categories of `cmds`, sorted by name; for a name used by
      several commands, the metadata of the last of them. */
  function CategoriesOf(cmds: seq<CommandDescriptor>): (cats: seq<Category>)
    ensures StrictlySortedByName(cats)
    ensures forall i :: 0 <= i < |cmds| && LastOfItsCategory(cmds, i) ==> cmds[i].category in cats
    ensures forall c :: c in cats ==> exists i :: 0 <= i < |cmds| && LastOfItsCategory(cmds, i) && cmds[i].category == c
    decreases |cmds|
  {
    if |cmds| == 0 then []
    else
      var before := CategoriesOf(cmds[..|cmds| - 1]);
      var cats := Upsert(before, cmds[|cmds| - 1].category);
      assert cmds == cmds[..|cmds| - 1] + [cmds[|cmds| - 1]];
      CategoriesStep(cmds[..|cmds| - 1], cmds[|cmds| - 1], before, cats);
      cats
  }

  /** A command that is last of its category stays last in every prefix
      holding it. */
  lemma LastInPrefix(cmds: seq<CommandDescriptor>, n: nat, i: nat)
    requires i < n <= |cmds|
    requires LastOfItsCategory(cmds, i)
    ensures LastOfItsCategory(cmds[..n], i)
  {
  }

  /** The induction step of `CategoriesOf`: upserting the last command's
      category into the categories of all earlier commands. */
  lemma CategoriesStep(prefix: seq<CommandDescriptor>, last: CommandDescriptor, before: seq<Category>, cats: seq<Category>)
    requires forall i :: 0 <= i < |prefix| && LastOfItsCategory(prefix, i) ==> prefix[i].category in before
    requires forall c :: c in before ==> exists i :: 0 <= i < |prefix| && LastOfItsCategory(prefix, i) && prefix[i].category == c
    requires StrictlySortedByName(before)
    requires cats == Upsert(before, last.category)
    ensures var cmds := prefix + [last];
      forall i :: 0 <= i < |cmds| && LastOfItsCategory(cmds, i) ==> cmds[i].category in cats
    ensures var cmds := prefix + [last];
      forall c :: c in cats ==> exists i :: 0 <= i < |cmds| && LastOfItsCategory(cmds, i) && cmds[i].category == c
  {
    var cmds := prefix + [last];
    var n := |prefix|;
    assert prefix == cmds[..n];
    var c := last.category;
    forall i | 0 <= i < |cmds| && LastOfItsCategory(cmds, i)
      ensures cmds[i].category in cats
    {
      if i < n {
        LastInPrefix(cmds, n, i);
        assert prefix[i].category in before;
        assert cmds[n] == last;
        assert cmds[i].category.name != c.name;
      }
    }
    forall x | x in cats
      ensures exists i :: 0 <= i < |cmds| && LastOfItsCategory(cmds, i) && cmds[i].category == x
    {
      if x == c {
        assert LastOfItsCategory(cmds, n);
      } else {
        var i :| 0 <= i < n && LastOfItsCategory(prefix, i) && prefix[i].category == x;
        assert LastOfItsCategory(cmds, i);
      }
    }
  }

  /** `Categories`: the distinct categories, strictly sorted by name. */
  function Categories(r: Registry): (cats: seq<Category>)
    ensures StrictlySortedByName(cats)
    ensures forall i :: 0 <= i < |r.commands| && LastOfItsCategory(r.commands, i) ==> r.commands[i].category in cats
    ensures forall c :: c in cats ==> exists i :: 0 <= i < |r.commands| && LastOfItsCategory(r.commands, i) && r.commands[i].category == c
  {
    CategoriesOf(r.commands)
  }

  /** Every registered command's category name is listed exactly once, with
      the metadata of the last command registered under that name. */
  lemma EveryCategoryListedOnce(r: Registry, i: nat)
    requires i < |r.commands|
    ensures exists c :: c in Categories(r) && c.name == r.commands[i].category.name
    ensures forall k, l :: 0 <= k < l < |Categories(r)| ==> Categories(r)[k].name != Categories(r)[l].name
  {
    var cmds := r.commands;
    var j := i;
    while exists l :: j < l < |cmds| && cmds[l].category.name == cmds[i].category.name
      invariant i <= j < |cmds| && cmds[j].category.name == cmds[i].category.name
      decreases |cmds| - j
    {
      var l :| j < l < |cmds| && cmds[l].category.name == cmds[i].category.name;
      j := l;
    }
    assert LastOfItsCategory(cmds, j);
    assert cmds[j].category in Categories(r);
    forall k, l | 0 <= k < l < |Categories(r)| ensures Categories(r)[k].name != Categories(r)[l].name {
      LessIrreflexive(Categories(r)[k].name);
    }
  }

  /* ---------------------------------------------------------------------- */
  /* ByCategory, Find, Search                                                */
  /* ---------------------------------------------------------------------- */

  function CommandName(d: CommandDescriptor): string
  {
    d.name
  }

  /** `ByCategory`: exactly the descriptors of category `name`, each as often
      as it was registered, sorted by command name (ties in no promised order). */
  function ByCategory(r: Registry, name: string): (out: seq<CommandDescriptor>)
    ensures SortedBy(out, CommandName)
    ensures forall d :: multiset(out)[d] == if d.category.name == name then multiset(r.commands)[d] else 0
  {
    SortBy(Filter(r.commands, (d: CommandDescriptor) => d.category.name == name), CommandName)
  }

  /** `containsAlias`: a left-to-right scan for `name`. */
  function ContainsAlias(aliases: seq<string>, name: string): (b: bool)
    ensures b <==> name in aliases
    decreases |aliases|
  {
    if |aliases| == 0 then false
    else aliases[0] == name || ContainsAlias(aliases[1..], name)
  }

  /** The lookup condition of `Find`. */
  predicate Matches(d: CommandDescriptor, category: string, name: string)
  {
    d.category.name == category && (d.name == name || ContainsAlias(d.aliases, name))
  }

  /** The first descriptor of `cmds` that matches, scanning from the front. */
  function FirstMatch(cmds: seq<CommandDescriptor>, category: string, name: string): (r: Option<CommandDescriptor>)
    ensures r.None? <==> forall i :: 0 <= i < |cmds| ==> !Matches(cmds[i], category, name)
    ensures r.Some? ==> exists i :: 0 <= i < |cmds| && cmds[i] == r.value && Matches(cmds[i], category, name)
                                  && forall j :: 0 <= j < i ==> !Matches(cmds[j], category, name)
    decreases |cmds|
  {
    if |cmds| == 0 then None
    else if Matches(cmds[0], category, name) then Some(cmds[0])
    else
      var r := FirstMatch(cmds[1..], category, name);
      assert forall i :: 0 < i < |cmds| ==> cmds[i] == cmds[1..][i - 1];
      r
  }

  /** `Find`: the first registered descriptor of `category` whose name or one
      of whose aliases is `name`; nothing when there is none. */
  function Find(r: Registry, category: string, name: string): (res: Option<CommandDescriptor>)
    ensures res.None? <==> forall i :: 0 <= i < |r.commands| ==> !Matches(r.commands[i], category, name)
    ensures res.Some? ==> exists i :: 0 <= i < |r.commands| && r.commands[i] == res.value
                                    && Matches(r.commands[i], category, name)
                                    && forall j :: 0 <= j < i ==> !Matches(r.commands[j], category, name)
  {
    FirstMatch(r.commands, category, name)
  }

  /** `Find` succeeds for a registered command's own name and for each of its
      aliases (possibly returning an earlier command with the same key), and
      fails for a string that is no name or alias in that category. */
  lemma FindByNameOrAlias(r: Registry, d: CommandDescriptor, name: string)
    requires d in r.commands
    ensures name == d.name || name in d.aliases ==> Find(r, d.category.name, name).Some?
    ensures (forall e :: e in r.commands && e.category.name == d.category.name ==> e.name != name && name !in e.aliases)
            ==> Find(r, d.category.name, name).None?
  {
    var i :| 0 <= i < |r.commands| && r.commands[i] == d;
    if name == d.name || name in d.aliases {
      assert Matches(r.commands[i], d.category.name, name);
    }
  }

  /** The condition of `Search`: the lower-cased query occurs in the lower-cased
      qualified name or description. */
  predicate SearchHit(d: CommandDescriptor, query: string)
  {
    var q := ToLower(query);
    Contains(ToLower(FullName(d)), q) || Contains(ToLower(d.description), q)
  }

  /** `Search`: in registration order, exactly the descriptors that hit. */
  function Search(r: Registry, query: string): (out: seq<CommandDescriptor>)
    ensures IsSubseq(out, r.commands)
    ensures forall d :: multiset(out)[d] == if SearchHit(d, query) then multiset(r.commands)[d] else 0
  {
    Filter(r.commands, (d: CommandDescriptor) => SearchHit(d, query))
  }

  /** A filter that keeps everything returns its input. */
  lemma {:induction false} FilterKeepingAll<T(!new)>(s: seq<T>, p: T -> bool)
    requires forall i :: 0 <= i < |s| ==> p(s[i])
    ensures Filter(s, p) == s
    decreases |s|
  {
    if |s| > 0 {
      FilterKeepingAll(s[1..], p);
    }
  }

  /** Every string contains the empty string, so the empty query finds the
      whole catalog in registration order. */
  lemma SearchEmptyQueryIsAll(r: Registry)
    ensures Search(r, "") == All(r)
  {
    forall i | 0 <= i < |r.commands| ensures SearchHit(r.commands[i], "") {
      assert OccursAt(ToLower(FullName(r.commands[i])), ToLower(""), 0);
    }
    FilterKeepingAll(r.commands, (d: CommandDescriptor) => SearchHit(d, ""));
  }

  /* ---------------------------------------------------------------------- */
  /* FuzzySearch                                                             */
  /* ---------------------------------------------------------------------- */

  /** One fuzzy-search hit: the command, the matched byte offsets of its
      qualified name, and the score. */
  datatype FuzzyResult = FuzzyResult(command: CommandDescriptor, matchedIndexes: seq<nat>, score: int)

  /** One match as the fuzzy library reports it: an index into its source list. */
  datatype RankedMatch = RankedMatch(index: nat, matchedIndexes: seq<nat>, score: int)

  /** Offsets that strictly increase and stay inside `text`. */
  predicate ValidOffsets(offsets: seq<nat>, text: string)
  {
    (forall k :: 0 <= k < |offsets| ==> offsets[k] < |text|)
    && (forall k, l :: 0 <= k < l < |offsets| ==> offsets[k] < offsets[l])
  }

  /** What the library promises about a ranking of `names`. */
  predicate WellRanked(ms: seq<RankedMatch>, names: seq<string>)
  {
    forall k :: 0 <= k < |ms| ==> ms[k].index < |names| && ValidOffsets(ms[k].matchedIndexes, names[ms[k].index])
  }

  /** The fuzzy ranking library, whose scoring is not modelled: any function
      that keeps its promises about indices and offsets. */
  type Ranker = f: (string, seq<string>) -> seq<RankedMatch>
    | forall q, names :: WellRanked(f(q, names), names)
    witness (q: string, names: seq<string>) => []

  /** The list the library ranks: every qualified name, in registration order. */
  function FullNames(cmds: seq<CommandDescriptor>): (names: seq<string>)
    ensures |names| == |cmds|
    ensures forall i :: 0 <= i < |cmds| ==> names[i] == FullName(cmds[i])
  {
    seq(|cmds|, i requires 0 <= i < |cmds| => FullName(cmds[i]))
  }

  /** `FuzzySearch`: the empty query bypasses ranking and lists every command,
      in order, unscored; any other query keeps the library's matches, each
      naming a registered command and offsets into its qualified name. */
  function FuzzySearch(r: Registry, rank: Ranker, query: string): (out: seq<FuzzyResult>)
    ensures query == "" ==> |out| == |r.commands|
    ensures query == "" ==> forall i :: 0 <= i < |out| ==> out[i] == FuzzyResult(r.commands[i], [], 0)
    ensures forall k :: 0 <= k < |out| ==> out[k].command in r.commands
    ensures forall k :: 0 <= k < |out| ==> ValidOffsets(out[k].matchedIndexes, FullName(out[k].command))
  {
    if query == "" then
      seq(|r.commands|, i requires 0 <= i < |r.commands| => FuzzyResult(r.commands[i], [], 0))
    else
      var names := FullNames(r.commands);
      var ms := rank(query, names);
      assert WellRanked(ms, names);
      seq(|ms|, k requires 0 <= k < |ms| =>
        FuzzyResult(r.commands[ms[k].index], ms[k].matchedIndexes, ms[k].score))
  }
}

=== FILE: scenarios.dfy ===
/** Worked examples: the resolver on a clone-like command,
    one command end to end, and browsing to it in the terminal UI. */
module Scenarios {
  import opened Options
  import opened Domain
  import opened CommandExecutor
  import CommandRegistry
  import Navigation
  import Ui
  import App
  import CategoryView

  function GitCategory(): Category
  {
    Category("git", "Git operations", "")
  }

  /** Positionals `url` (required) and `dir` (optional, no default). */
  function CloneArgs(): seq<ArgDef>
  {
    [ArgDef("url", "", "Repository URL", true, "", ArgString),
     ArgDef("dir", "", "Target directory", false, "", ArgString)]
  }

  /** With no values the resolver fails on "url", the first missing required
      positional, and never reaches the action. */
  lemma ResolverNamesFirstMissing(exec: Executor, d: CommandDescriptor)
    requires d.args == CloneArgs()
    ensures Run(exec, d, [], map[]) == Fail(MissingArgument("url"))
  {
    assert MissingRequired(d.args, [], 0);
  }

  /** With both values the resolver binds each by position and the action
      sees exactly that map. */
  lemma ResolverBindsByPosition(exec: Executor, d: CommandDescriptor)
    requires d.args == CloneArgs() && d.flags == []
    ensures ResolveArgs(d, ["https://x", "/tmp"]) == Ok(map["url" := "https://x", "dir" := "/tmp"])
    ensures Run(exec, d, ["https://x", "/tmp"], map[])
            == d.action(ContextFor(exec, map["url" := "https://x", "dir" := "/tmp"], map[]))
  {
    var provided := ["https://x", "/tmp"];
    assert forall i :: !MissingRequired(d.args, provided, i);
    var m := ResolveArgs(d, provided).value;
    assert UniqueNames(d.args);
    SuppliedPositionalsBound(d, provided, 0);
    SuppliedPositionalsBound(d, provided, 1);
    assert m.Keys == {"url", "dir"};
    assert m["url"] == "https://x" && m["dir"] == "/tmp";
    assert m == map["url" := "https://x", "dir" := "/tmp"];
    assert ResolveFlags(d, map[]) == map[];
  }

  /** One command "git status" with no inputs: registered, found by name, and
      run with nothing, its action receives empty maps and its result comes
      back unchanged. */
  lemma StatusEndToEnd(exec: Executor, act: Action)
    ensures var status := CommandDescriptor(GitCategory(), "status", [], "Show working tree status", [], [], act);
            var r := CommandRegistry.Register(CommandRegistry.New(), [status]);
            && CommandRegistry.Find(r, "git", "status") == Some(status)
            && Run(exec, status, [], map[]) == act(ContextFor(exec, map[], map[]))
  {
    var status := CommandDescriptor(GitCategory(), "status", [], "Show working tree status", [], [], act);
    var r := CommandRegistry.Register(CommandRegistry.New(), [status]);
    assert r.commands == [status];
    assert CommandRegistry.Matches(status, "git", "status");
    assert ResolveFlags(status, map[]) == map[];
  }

  function Status(act: Action): CommandDescriptor
  {
    CommandDescriptor(GitCategory(), "status", [], "Show working tree status", [], [], act)
  }

  /** A catalog of one command has its one category. */
  lemma OneCategory(act: Action)
    ensures CommandRegistry.Categories(CommandRegistry.Registry([Status(act)])) == [GitCategory()]
  {
    var cats := CommandRegistry.Categories(CommandRegistry.Registry([Status(act)]));
    assert CommandRegistry.LastOfItsCategory([Status(act)], 0);
  }

  /** ... and that category lists exactly that command. */
  lemma OneInCategory(act: Action)
    ensures CommandRegistry.ByCategory(CommandRegistry.Registry([Status(act)]), "git") == [Status(act)]
  {
    var byCat := CommandRegistry.ByCategory(CommandRegistry.Registry([Status(act)]), "git");
    assert multiset(byCat)[Status(act)] == 1;
    assert |byCat| == |multiset(byCat)|;
    assert forall d :: d != Status(act) ==> multiset(byCat)[d] == 0;
    assert multiset(byCat) == multiset{Status(act)};
    assert byCat[0] in multiset(byCat);
  }

  function CategoryEntry(): Navigation.Entry
  {
    Navigation.Entry(Navigation.CategoryScreen, "git", Navigation.CategoryName("git"))
  }

  function DetailEntry(act: Action): Navigation.Entry
  {
    Navigation.Entry(Navigation.CommandDetailScreen, "status", Navigation.Command(Status(act)))
  }

  /** Browsing from the home screen: "enter" on the one category opens it. */
  lemma HomeEnterOpensCategory(env: Ui.Env, act: Action)
    requires env.registry == CommandRegistry.Registry([Status(act)])
    ensures var cat := App.Deliver(env, App.NewAppModel(env), Ui.Key("enter"));
            && !cat.1
            && cat.0 == App.NewAppModel(env).(nav := Navigation.Push(Navigation.New(), CategoryEntry()),
                                              category := Some(CategoryView.NewCategoryModel(env.registry, "git")))
            && cat.0.category.value.commands == [Status(act)]
  {
    OneCategory(act);
    OneInCategory(act);
  }

  /** The model after opening the category is in the app's invariant. */
  lemma CategoryOpenIsValid(env: Ui.Env, act: Action, m: App.AppModel)
    requires env.registry == CommandRegistry.Registry([Status(act)])
    requires m == App.NewAppModel(env).(nav := Navigation.Push(Navigation.New(), CategoryEntry()),
                                        category := Some(CategoryView.NewCategoryModel(env.registry, "git")))
    ensures App.Valid(env, m)
  {
    App.OnStackPush(Navigation.New(), CategoryEntry(), Navigation.CommandDetailScreen);
    App.OnStackPush(Navigation.New(), CategoryEntry(), Navigation.SearchScreen);
    assert !App.OnStack(Navigation.New(), Navigation.CommandDetailScreen);
    assert !App.OnStack(Navigation.New(), Navigation.SearchScreen);
  }

  /** ... and "enter" on its one command opens the command's form. */
  lemma CategoryEnterOpensDetail(env: Ui.Env, act: Action, m: App.AppModel)
    requires env.registry == CommandRegistry.Registry([Status(act)])
    requires m == App.NewAppModel(env).(nav := Navigation.Push(Navigation.New(), CategoryEntry()),
                                        category := Some(CategoryView.NewCategoryModel(env.registry, "git")))
    ensures App.Valid(env, m)
    ensures var detail := App.Deliver(env, m, Ui.Key("enter"));
            && !detail.1 && detail.0.nav == Navigation.Push(m.nav, DetailEntry(act))
  {
    OneInCategory(act);
    CategoryOpenIsValid(env, act, m);
    var first := App.Update(env, m, Ui.Key("enter"));
    assert first == App.Delegate(env, m, Ui.Key("enter"));
    assert first.1 == Ui.Send(Ui.PushScreenMsg(CategoryView.DetailEntry(Status(act))));
    assert first.0.nav == m.nav;
  }

  /** The breadcrumb on the command's form. */
  lemma BrowseBreadcrumb(act: Action)
    ensures Navigation.Breadcrumb(Navigation.Push(Navigation.Push(Navigation.New(), CategoryEntry()), DetailEntry(act)))
            == "Home > git > status"
  {
    Navigation.BreadcrumbGrowsWithPush(Navigation.New(), CategoryEntry());
    Navigation.BreadcrumbGrowsWithPush(Navigation.Push(Navigation.New(), CategoryEntry()), DetailEntry(act));
  }

  /** "esc" walks back one screen at a time and quits at the root. */
  lemma EscWalksBack(env: Ui.Env, m: App.AppModel)
    requires App.Valid(env, m)
    requires |m.nav| == 3 && m.nav[0].screen == Navigation.HomeScreen && m.nav[2].screen == Navigation.CommandDetailScreen && m.nav[1].screen == Navigation.CategoryScreen
    ensures var back := App.Update(env, m, Ui.Key("esc")).0;
            && back.nav == m.nav[..2]
            && App.Update(env, back, Ui.Key("esc")).0.nav == m.nav[..1]
            && App.Update(env, App.Update(env, back, Ui.Key("esc")).0, Ui.Key("esc")).1 == Ui.Quit
  {
    App.GlobalKeys(env, m);
    var back := App.Update(env, m, Ui.Key("esc")).0;
    App.GlobalKeys(env, back);
    var root := App.Update(env, back, Ui.Key("esc")).0;
    App.GlobalKeys(env, root);
  }
}

=== FILE: search.dfy ===
/** The fuzzy command palette, embedded in the browser or standalone
    (internal/tui/screens/search.go). */
module SearchPalette {
  import opened Strings
  import opened Domain
  import opened Navigation
  import opened Ui
  import CommandRegistry
  import CommandExecutor

  datatype SearchModel = SearchModel(
    query: string,
    results: seq<CommandRegistry.FuzzyResult>,
    cursor: int,
    width: int,
    height: int,
    standalone: bool,
    executed: bool,
    output: string,
    hasError: bool)

  /** The results are the registry's fuzzy matches for the query, and the
      cursor stays inside them. */
  ghost predicate Valid(env: Env, m: SearchModel)
  {
    && m.results == CommandRegistry.FuzzySearch(env.registry, env.rank, m.query)
    && CursorIn(m.cursor, |m.results|)
  }

  /** `NewSearchModel` (embedded, `standalone` false) and
      `NewPaletteSearchModel` (standalone true): an empty query listing every
      command in registration order, nothing executed. */
  function NewSearchModel(env: Env, standalone: bool): (m: SearchModel)
    ensures Valid(env, m) && m.query == "" && m.cursor == 0
    ensures m.standalone == standalone && !m.executed
    ensures |m.results| == |env.registry.commands|
    ensures forall i :: 0 <= i < |m.results| ==> m.results[i].command == env.registry.commands[i]
  {
    SearchModel("", CommandRegistry.FuzzySearch(env.registry, env.rank, ""), 0, 0, 0, standalone, false, "", false)
  }

  /** `updateResults`: re-rank for the new query and put the cursor on the
      best match. */
  function WithQuery(env: Env, m: SearchModel, q: string): (m': SearchModel)
    ensures Valid(env, m') && m'.query == q && m'.cursor == 0
    ensures m' == m.(query := q, results := m'.results, cursor := 0)
  {
    m.(query := q, results := CommandRegistry.FuzzySearch(env.registry, env.rank, q), cursor := 0)
  }

  /** The detail entry the embedded palette pushes: titled with the qualified
      name, unlike the category screen's bare name. */
  function DetailEntry(d: CommandDescriptor): (e: Entry)
    ensures WellFormedEntry(e) && e.screen == CommandDetailScreen && e.data == Command(d)
    ensures e.title == d.category.name + " " + d.name
  {
    Entry(CommandDetailScreen, FullName(d), Command(d))
  }

  /** A command the standalone palette runs in place: it takes no input. */
  predicate RunsInline(m: SearchModel, d: CommandDescriptor)
  {
    m.standalone && |d.args| == 0 && |d.flags| == 0
  }

  /** `executeInline`: run with no arguments and no flags and keep the
      result's value, or the error's text with the error flag set. */
  function ExecuteInline(exec: CommandExecutor.Executor, m: SearchModel, d: CommandDescriptor): (m': SearchModel)
    ensures m'.executed
    ensures m'.hasError <==> CommandExecutor.Run(exec, d, [], map[]).Fail?
    ensures !m'.hasError ==> m'.output == CommandExecutor.Run(exec, d, [], map[]).value
    ensures m'.hasError ==> m'.output == ErrorText(CommandExecutor.Run(exec, d, [], map[]).err)
    ensures m' == m.(executed := true, output := m'.output, hasError := m'.hasError)
  {
    var result := CommandExecutor.Run(exec, d, [], map[]);
    if result.IsOk() then m.(executed := true, output := result.Value(), hasError := false)
    else m.(executed := true, output := ErrorText(result.err), hasError := true)
  }

  /** A command with no positionals cannot fail validation: the inline run is
      exactly the action applied to empty argument and flag maps. */
  lemma InlineRunIsTheAction(exec: CommandExecutor.Executor, d: CommandDescriptor)
    requires |d.args| == 0 && |d.flags| == 0
    ensures CommandExecutor.Run(exec, d, [], map[]) == d.action(CommandExecutor.ContextFor(exec, map[], map[]))
  {
    assert forall i :: !CommandExecutor.MissingRequired(d.args, [], i);
    assert CommandExecutor.ResolveFlags(d, map[]) == map[];
  }

  /** `Update`. A window size is recorded. After an inline run any key quits.
      Otherwise "esc" quits the standalone palette and pops the embedded one;
      "up"/"down" move the cursor; "enter" on a hit either runs it in place
      (standalone, no inputs) or asks to push its detail screen; "backspace"
      and one-character keys edit the query and re-rank. */
  function Update(env: Env, m: SearchModel, msg: Msg): (res: (SearchModel, Cmd))
    requires Valid(env, m)
    ensures Valid(env, res.0) && WellFormedCmd(res.1)
    ensures res.0.standalone == m.standalone
    ensures res.1.Quit? <==> msg.Key? && (m.executed || (msg.key == "esc" && m.standalone))
    ensures res.1.Send? <==> msg.Key? && !m.executed && ((msg.key == "esc" && !m.standalone)
                                                          || (msg.key == "enter" && |m.results| > 0 && !RunsInline(m, m.results[m.cursor].command)))
    ensures !msg.Key? && !msg.WindowSize? ==> res == (m, NoCmd)
  {
    match msg
    case WindowSize(w, h) => (m.(width := w, height := h), NoCmd)
    case Key(k) =>
      if m.executed then (m, Quit)
      else if k == "esc" then (m, if m.standalone then Quit else Send(PopScreenMsg))
      else if k == "up" then (m.(cursor := Up(m.cursor)), NoCmd)
      else if k == "down" then (m.(cursor := Down(m.cursor, |m.results|)), NoCmd)
      else if k == "enter" then
        if |m.results| > 0 then
          var d := m.results[m.cursor].command;
          if RunsInline(m, d) then (ExecuteInline(env.exec, m, d), NoCmd)
          else (m, Send(PushScreenMsg(DetailEntry(d))))
        else (m, NoCmd)
      else if k == "backspace" then
        if |m.query| > 0 then (WithQuery(env, m, m.query[..|m.query| - 1]), NoCmd) else (m, NoCmd)
      else if |k| == 1 then (WithQuery(env, m, m.query + k), NoCmd)
      else (m, NoCmd)
    case _ => (m, NoCmd)
  }

  /** Before any run: "esc" in the embedded palette asks to pop it, "up" and
      "down" move the cursor within the results, and "backspace" on an empty
      query changes nothing. */
  lemma UpdateNavigationKeys(env: Env, m: SearchModel)
    requires Valid(env, m) && !m.executed
    ensures !m.standalone ==> Update(env, m, Key("esc")) == (m, Send(PopScreenMsg))
    ensures Update(env, m, Key("up")) == (m.(cursor := Up(m.cursor)), NoCmd)
    ensures Update(env, m, Key("down")) == (m.(cursor := Down(m.cursor, |m.results|)), NoCmd)
    ensures m.query == "" ==> Update(env, m, Key("backspace")) == (m, NoCmd)
  {
  }

  /** Typing a character extends the query and re-ranks from the top;
      backspace then restores the earlier query and its results. */
  lemma TypeThenBackspace(env: Env, m: SearchModel, c: char)
    requires Valid(env, m) && !m.executed
    ensures var typed := Update(env, m, Key([c])).0;
            && typed.query == m.query + [c] && typed.cursor == 0
            && Update(env, typed, Key("backspace")).0 == m.(cursor := 0)
  {
    var q := m.query + [c];
    assert q[..|q| - 1] == m.query;
  }

  /** Enter on a hit that needs input, or in the embedded palette, pushes the
      selected command's detail screen and changes nothing else. */
  lemma EnterPushesDetail(env: Env, m: SearchModel)
    requires Valid(env, m) && !m.executed && |m.results| > 0
    requires !RunsInline(m, m.results[m.cursor].command)
    ensures Update(env, m, Key("enter")) == (m, Send(PushScreenMsg(DetailEntry(m.results[m.cursor].command))))
  {
  }

  /** Enter on an input-free hit in the standalone palette runs it in place;
      the next key of any kind then quits. */
  lemma EnterRunsInlineThenQuits(env: Env, m: SearchModel, next: string)
    requires Valid(env, m) && !m.executed && |m.results| > 0
    requires RunsInline(m, m.results[m.cursor].command)
    ensures var ran := Update(env, m, Key("enter"));
            && ran.1 == NoCmd && ran.0.executed
            && ran.0 == ExecuteInline(env.exec, m, m.results[m.cursor].command)
            && Update(env, ran.0, Key(next)).1 == Quit
  {
  }

  /* ---------------------------------------------------------------------- */
  /* Rendering arithmetic of View                                            */
  /* ---------------------------------------------------------------------- */

  /** How many results fit: 15 before any size is known, otherwise the height
      less 8 for the chrome, but never fewer than 5. */
  function MaxVisible(height: int): (n: int)
    ensures n >= 5
    ensures height <= 0 ==> n == 15
    ensures height >= 13 ==> n + 8 == height
    ensures 0 < height < 13 ==> n == 5
  {
    if height > 0 then (if height - 8 < 5 then 5 else height - 8) else 15
  }

  /** The rows `View` draws: a window of at most `MaxVisible` results that
      scrolls just enough to keep the cursor on screen. */
  function VisibleWindow(height: int, cursor: int, n: int): (w: (int, int))
    requires 0 <= cursor && 0 <= n
    ensures 0 <= w.0 && w.1 <= n
    ensures w.1 - w.0 <= MaxVisible(height)
    ensures cursor < n ==> w.0 <= cursor < w.1
    ensures cursor < MaxVisible(height) ==> w.0 == 0
    ensures cursor >= MaxVisible(height) ==> w.0 == cursor - MaxVisible(height) + 1
    ensures cursor >= MaxVisible(height) && cursor < n ==> w.1 == cursor + 1
    ensures w.0 <= n ==> w.1 - w.0 == if n - w.0 < MaxVisible(height) then n - w.0 else MaxVisible(height)
  {
    var max := MaxVisible(height);
    var start := if cursor >= max then cursor - max + 1 else 0;
    var end := if start + max > n then n else start + max;
    (start, end)
  }

  /** One character of a rendered name and whether it is highlighted. */
  datatype Glyph = Glyph(ch: char, highlighted: bool)

  /** `highlight`: every character of `text`, highlighted exactly where its
      offset is one of the matched offsets. */
  function Highlight(text: string, matched: seq<nat>): (g: seq<Glyph>)
    ensures |g| == |text|
    ensures forall i :: 0 <= i < |text| ==> g[i].ch == text[i]
    ensures forall i :: 0 <= i < |text| ==> (g[i].highlighted <==> i in matched)
  {
    if |matched| == 0 then seq(|text|, i requires 0 <= i < |text| => Glyph(text[i], false))
    else seq(|text|, i requires 0 <= i < |text| => Glyph(text[i], i in matched))
  }

  /** The characters of a glyph sequence, with the styling dropped. */
  function Plain(g: seq<Glyph>): (s: string)
    ensures |s| == |g|
    ensures forall i :: 0 <= i < |g| ==> s[i] == g[i].ch
  {
    seq(|g|, i requires 0 <= i < |g| => g[i].ch)
  }

  /** Highlighting never changes the text, and with no matches nothing is
      highlighted. */
  lemma HighlightKeepsText(text: string, matched: seq<nat>)
    ensures Plain(Highlight(text, matched)) == text
    ensures |matched| == 0 ==> forall i :: 0 <= i < |text| ==> !Highlight(text, matched)[i].highlighted
  {
  }

  /** The padding after a name: spaces up to column 24, none for a longer
      name. */
  function NamePadding(name: string): (p: string)
    ensures forall i :: 0 <= i < |p| ==> p[i] == ' '
    ensures |name + p| == if |name| < 24 then 24 else |name|
  {
    if |name| < 24 then Spaces(24 - |name|) else ""
  }
}

=== FILE: seqs.dfy ===
/** Order-preserving filtering and sorting by a string key, the two shapes
    the registry's queries are built from. */
module Seqs {
  import opened Strings

  /** `a` is `b` with some elements deleted and the rest kept in order. */
  ghost predicate IsSubseq<T>(a: seq<T>, b: seq<T>)
    decreases |b|
  {
    |a| == 0 || (|b| > 0 && ((a[0] == b[0] && IsSubseq(a[1..], b[1..])) || IsSubseq(a, b[1..])))
  }

  /** Keeps, in their original order, the elements that satisfy `p`, as the
      source's filtering loops do by appending each match to the output. */
  function Filter<T(!new)>(s: seq<T>, p: T -> bool): (r: seq<T>)
    ensures IsSubseq(r, s)
    ensures forall x :: multiset(r)[x] == if p(x) then multiset(s)[x] else 0
    ensures forall i :: 0 <= i < |r| ==> p(r[i])
    decreases |s|
  {
    if |s| == 0 then []
    else
      assert s == [s[0]] + s[1..];
      var rest := Filter(s[1..], p);
      if p(s[0]) then
        var r := [s[0]] + rest;
        assert r[1..] == rest;
        r
      else rest
  }

  /** Every pair of elements is in non-decreasing key order. */
  predicate SortedBy<T>(s: seq<T>, key: T -> string)
  {
    forall i, j :: 0 <= i < j < |s| ==> LessEq(key(s[i]), key(s[j]))
  }

  /** Inserts `x` in front of the first element whose key is not below it. */
  function InsertBy<T(!new)>(x: T, s: seq<T>, key: T -> string): (r: seq<T>)
    requires SortedBy(s, key)
    ensures SortedBy(r, key)
    ensures multiset(r) == multiset(s) + multiset{x}
    decreases |s|
  {
    if |s| == 0 then [x]
    else if LessEq(key(x), key(s[0])) then
      assert forall j :: 0 <= j < |s| ==> LessEq(key(x), key(s[j])) by {
        forall j | 0 <= j < |s| ensures LessEq(key(x), key(s[j])) {
          if j > 0 {
            LessEqTransitive(key(x), key(s[0]), key(s[j]));
          }
        }
      }
      var r := [x] + s;
      assert forall i :: 0 < i < |r| ==> r[i] == s[i - 1];
      r
    else
      assert s == [s[0]] + s[1..];
      var rest := InsertBy(x, s[1..], key);
      LessEqTotal(key(x), key(s[0]));
      assert forall j :: 0 <= j < |rest| ==> LessEq(key(s[0]), key(rest[j])) by {
        forall j | 0 <= j < |rest| ensures LessEq(key(s[0]), key(rest[j])) {
          assert rest[j] in multiset(rest);
          if rest[j] != x {
            assert rest[j] in multiset(s[1..]);
            var k :| 0 <= k < |s[1..]| && s[1..][k] == rest[j];
            assert s[k + 1] == rest[j];
          }
        }
      }
      var r := [s[0]] + rest;
      assert forall i :: 0 < i < |r| ==> r[i] == rest[i - 1];
      r
  }

  /** Insertion sort by `key`. Elements with equal keys keep no promised order. */
  function SortBy<T(!new)>(s: seq<T>, key: T -> string): (r: seq<T>)
    ensures SortedBy(r, key)
    ensures multiset(r) == multiset(s)
    decreases |s|
  {
    if |s| == 0 then []
    else
      assert s == [s[0]] + s[1..];
      InsertBy(s[0], SortBy(s[1..], key), key)
  }
}

=== FILE: status.dfy ===
/** The bottom status bar (internal/tui/components/status.go). */
module StatusLine {
  import opened Strings

  /** `StatusBar` before styling: a space, the breadcrumb, then spaces up to
      `width`; a breadcrumb too long for the width is kept whole. */
  function StatusBar(breadcrumb: string, width: int): (text: string)
    ensures |text| == if width > 1 + |breadcrumb| then width else 1 + |breadcrumb|
    ensures text[..1 + |breadcrumb|] == " " + breadcrumb
    ensures forall i :: 1 + |breadcrumb| <= i < |text| ==> text[i] == ' '
  {
    var text := " " + breadcrumb;
    var padding := width - |text|;
    if padding > 0 then text + Spaces(padding) else text
  }

  /** Widening the bar only adds trailing spaces. */
  lemma WiderBarExtends(breadcrumb: string, w1: int, w2: int)
    requires w1 <= w2
    ensures StatusBar(breadcrumb, w1) <= StatusBar(breadcrumb, w2)
  {
    var a := StatusBar(breadcrumb, w1);
    var b := StatusBar(breadcrumb, w2);
    assert forall i :: 0 <= i < |a| ==> a[i] == b[i] by {
      forall i | 0 <= i < |a| ensures a[i] == b[i] {
        if i < 1 + |breadcrumb| {
          assert a[i] == a[..1 + |breadcrumb|][i];
          assert b[i] == b[..1 + |breadcrumb|][i];
        }
      }
    }
  }
}

=== FILE: strings.dfy ===
/** String helpers shared by the whole model.

    A `string` here stands for a Go string: every `char` is one byte, so Go's
    `len(s)` is `|s|` and `s[:len(s)-1]` drops the last element. */
module Strings {

  /* ---------------------------------------------------------------------- */
  /* Go's string ordering: bytewise lexicographic comparison.                */
  /* (Dafny's own `<` on sequences means "proper prefix", not this.)         */
  /* ---------------------------------------------------------------------- */

  /** `a < b` as Go compares strings. */
  predicate Less(a: string, b: string)
  {
    if |a| == 0 then |b| > 0
    else if |b| == 0 then false
    else a[0] < b[0] || (a[0] == b[0] && Less(a[1..], b[1..]))
  }

  /** `a <= b` as Go compares strings. */
  predicate LessEq(a: string, b: string)
  {
    !Less(b, a)
  }

  lemma {:induction false} LessIrreflexive(a: string)
    ensures !Less(a, a)
  {
    if |a| > 0 {
      LessIrreflexive(a[1..]);
    }
  }

  lemma {:induction false} LessTransitive(a: string, b: string, c: string)
    requires Less(a, b) && Less(b, c)
    ensures Less(a, c)
  {
    if |a| > 0 && |b| > 0 && |c| > 0 && a[0] == b[0] && b[0] == c[0] {
      LessTransitive(a[1..], b[1..], c[1..]);
    }
  }

  /** Two different strings are always ordered one way or the other. */
  lemma {:induction false} LessTotal(a: string, b: string)
    requires a != b
    ensures Less(a, b) || Less(b, a)
  {
    if |a| > 0 && |b| > 0 && a[0] == b[0] {
      assert a == [a[0]] + a[1..];
      assert b == [b[0]] + b[1..];
      LessTotal(a[1..], b[1..]);
    }
  }

  lemma LessAsymmetric(a: string, b: string)
    requires Less(a, b)
    ensures !Less(b, a)
  {
    if Less(b, a) {
      LessTransitive(a, b, a);
      LessIrreflexive(a);
    }
  }

  /** `LessEq` is the total preorder a sort by name relies on. */
  lemma LessEqTransitive(a: string, b: string, c: string)
    requires LessEq(a, b) && LessEq(b, c)
    ensures LessEq(a, c)
  {
    if Less(c, a) {
      if a == b {
      } else if b == c {
      } else {
        LessTotal(a, b);
        LessTransitive(c, a, b);
      }
    }
  }

  lemma LessEqTotal(a: string, b: string)
    ensures LessEq(a, b) || LessEq(b, a)
  {
    if Less(a, b) && Less(b, a) {
      LessAsymmetric(a, b);
    }
  }

  /* ---------------------------------------------------------------------- */
  /* Case folding, substring search, joining, padding.                       */
  /* ---------------------------------------------------------------------- */

  /** ASCII lower-casing of one byte. */
  function LowerChar(c: char): char
  {
    if 'A' <= c <= 'Z' then (c as int + 32) as char else c
  }

  /** `strings.ToLower`, restricted to ASCII. */
  function ToLower(s: string): (r: string)
    ensures |r| == |s|
    ensures forall i :: 0 <= i < |s| ==> r[i] == LowerChar(s[i])
  {
    seq(|s|, i requires 0 <= i < |s| => LowerChar(s[i]))
  }

  /** `sub` occurs in `s` starting at byte `i`. */
  predicate OccursAt(s: string, sub: string, i: nat)
  {
    i + |sub| <= |s| && s[i..i + |sub|] == sub
  }

  /** `strings.Contains(s, sub)`: scans `s` from the left for an occurrence. */
  function Contains(s: string, sub: string): (b: bool)
    ensures b <==> exists i: nat :: OccursAt(s, sub, i)
    decreases |s|
  {
    if sub <= s then
      assert OccursAt(s, sub, 0);
      true
    else if |s| == 0 then
      false
    else
      var rest := Contains(s[1..], sub);
      assert rest ==> exists i: nat :: OccursAt(s, sub, i) by {
        if rest {
          var i: nat :| OccursAt(s[1..], sub, i);
          assert s[1..][i..i + |sub|] == s[i + 1..i + 1 + |sub|];
          assert OccursAt(s, sub, i + 1);
        }
      }
      assert !rest ==> forall i: nat :: !OccursAt(s, sub, i) by {
        if !rest {
          forall i: nat ensures !OccursAt(s, sub, i) {
            if OccursAt(s, sub, i) && i > 0 {
              assert s[1..][i - 1..i - 1 + |sub|] == s[i..i + |sub|];
              assert OccursAt(s[1..], sub, i - 1);
            }
          }
        }
      }
      rest
  }

  /** `strings.Join(parts, sep)`. */
  function Join(parts: seq<string>, sep: string): string
    decreases |parts|
  {
    if |parts| == 0 then ""
    else if |parts| == 1 then parts[0]
    else Join(parts[..|parts| - 1], sep) + sep + parts[|parts| - 1]
  }

  /** A join starts with the first part and ends with the last. */
  lemma {:induction false} JoinEnds(parts: seq<string>, sep: string)
    requires |parts| > 0
    ensures |parts[0]| <= |Join(parts, sep)| && Join(parts, sep)[..|parts[0]|] == parts[0]
    ensures |parts[|parts| - 1]| <= |Join(parts, sep)|
    ensures Join(parts, sep)[|Join(parts, sep)| - |parts[|parts| - 1]|..] == parts[|parts| - 1]
    decreases |parts|
  {
    if |parts| > 1 {
      var init := parts[..|parts| - 1];
      JoinEnds(init, sep);
      assert init[0] == parts[0];
      var j := Join(init, sep);
      assert Join(parts, sep) == j + sep + parts[|parts| - 1];
      assert (j + sep + parts[|parts| - 1])[..|parts[0]|] == j[..|parts[0]|];
    }
  }

  /** `n` space characters. */
  function Spaces(n: nat): (r: string)
    ensures |r| == n
    ensures forall i :: 0 <= i < n ==> r[i] == ' '
  {
    seq(n, _ => ' ')
  }
}

=== FILE: ui.dfy ===
/** The messages and commands the terminal UI's `Update` functions exchange,
    and the collaborators the screens consult (internal/tui). */
module Ui {
  import opened Navigation
  import CommandRegistry
  import CommandExecutor

  /** The messages a screen can receive. */
  datatype Msg =
    | WindowSize(width: int, height: int)
    | Key(key: string)
    | PushScreenMsg(entry: Entry)
    | PopScreenMsg
    | ConfirmResult(confirmed: bool)

  /** What an `Update` asks the runtime to do next: nothing, quit, or deliver
      a message (the `tea.Cmd` closures of the source). */
  datatype Cmd = NoCmd | Quit | Send(msg: Msg)

  /** What the screens read: the catalog, the fuzzy ranker, and the executor. */
  datatype Env = Env(
    registry: CommandRegistry.Registry,
    rank: CommandRegistry.Ranker,
    exec: CommandExecutor.Executor)

  /** The payload matches the screen kind, as the app's type assertions
      `Data.(string)` and `Data.(domain.CommandDescriptor)` demand. */
  predicate WellFormedEntry(e: Entry)
  {
    && (e.screen == CategoryScreen ==> e.data.CategoryName?)
    && (e.screen == CommandDetailScreen ==> e.data.Command?)
  }

  predicate WellFormedMsg(msg: Msg)
  {
    msg.PushScreenMsg? ==> WellFormedEntry(msg.entry)
  }

  /** A command that, if it delivers a message, delivers a well-formed one. */
  predicate WellFormedCmd(c: Cmd)
  {
    c.Send? ==> WellFormedMsg(c.msg)
  }

  /** The cursor bound every list screen keeps: inside the list, or 0 when
      the list is empty. */
  predicate CursorIn(cursor: int, length: int)
  {
    0 <= cursor && (cursor < length || cursor == 0)
  }

  /** Moving up: one step toward 0, stopping there. */
  function Up(cursor: int): (c: int)
    requires cursor >= 0
    ensures c >= 0 && cursor - 1 <= c <= cursor
    ensures c == cursor <==> cursor == 0
  {
    if cursor > 0 then cursor - 1 else cursor
  }

  /** Moving down: one step toward the last index, stopping there. */
  function Down(cursor: int, length: int): (c: int)
    requires CursorIn(cursor, length)
    ensures CursorIn(c, length)
    ensures cursor < length - 1 ==> c == cursor + 1
    ensures cursor >= length - 1 ==> c == cursor
  {
    if cursor < length - 1 then cursor + 1 else cursor
  }
}
